=== FILE: README.md ===
# Envelop web client: document records, share links and page rules in Dafny

This project models the decision logic of the Envelop web client, which stores a
user's files in their Gaia storage, lists them, and shares them by link. The
model covers three parts.

- **The `WithFile` capability of a record.** This covers the lazily derived and
  cached `fileName` and the choice of uploader by file size. It also covers the
  `beforeSave` hook, which names the remote object `<24 random characters>/<fileName>`
  and records the part count. The rest is the names of part objects
  (`<filePath>.part<i>`), the nulling of falsy attributes in `serialize`,
  progress-callback registration, and the choice between the partitioned
  download and the direct-URL download.
- **The document record's field mapping.** Version-1 payloads (`url`, `size`,
  `num_parts`, `created_at`) load onto the current attributes (`filePath`,
  `fileSize`, `numParts`, `createdAt`). The JSON form of a document uses the
  version-1 names again, tagged `version: 1`, with `localId` copied from `id`
  and `content_type: null`.
- **Small rules inside the page components.** These are batch admission, the
  empty state, startup migration of locally held documents and delete
  confirmation in the app page. They also include share-path parsing and
  username qualification on the download page, and newest-first ordering and
  the per-card deleting flag in the list. The card's title and share URL and
  the avatar's display-name and picture fallbacks complete the set.

Modules, one per file:

- `Wrappers` holds `Option`/`Result`.
- `Js` holds the JavaScript value semantics the code relies on: truthiness,
  `<=`/`>` on `null`/`undefined`/`NaN`, template interpolation, and
  `${n}` for an index.
- `Strings` holds `split`, `split().pop()`, `split().filter(s => s)` and
  `replace` with a string pattern.
- `WithFile`, `GaiaDocument`, `App`, `Download`, `DocumentList`, `DocumentCard`
  and `Avatar` follow the source files.

Collaborators are parameters or results. This covers the uploaders, the
partitioned downloader, the session's `getFileUrl`, the random generator, the
indexes and `GaiaDocument.fromFile`. A collaborator's result (the upload's part
count, the reassembled bytes, the file URL, the loaded payload) is an argument.
What the page asks of the indexes is returned as a list of calls.
Object identity, which `===` compares, is a numeric handle carried by each
document object; `GaiaDocument.fromFile` gives each new object a handle not yet
in use. The session's username may be `null`.

The size limits `SINGLE_FILE_SIZE_LIMIT` and `FILE_SIZE_LIMIT` are defined in
`lib/constants.js`, which is not part of this model, so they are parameters.

Three behaviours of the code are worth stating plainly:

- The JSON form of a document uses the version-1 names (`url`, `size`,
  `num_parts`, `created_at`) with `version: 1`, as `lib/gaia_document.test.js`
  fixes it.
- A missing `fileSize` throws the string "Cant get uploader - missing
  'fileSize'". `null` is not missing: it compares as 0 and selects the single
  uploader.
- Registering a non-function callback throws the string "Progress callback
  must be of type 'function'".

## Model

| member | source | states |
|---|---|---|
| `WithFile.New` | assets/javascripts/lib/records/mixins/with_file.js:44-50 | a new record keeps the given `filePath`, `fileSize`, `numParts` and file name, has empty callback lists, no uploader and no downloader, so every callback is trivially attached |
| `WithFile.FileName` | assets/javascripts/lib/records/mixins/with_file.js:52-56 | a truthy cached name wins and nothing changes; with no name and no truthy `filePath` the result is null; otherwise the name holds no `/`, ends `filePath`, is preceded by a `/` or is all of it, and is cached |
| `WithFile.SetFileName` | assets/javascripts/lib/records/mixins/with_file.js:58-60 | the setter changes the cached name and nothing else |
| `WithFile.FileNameCached` | assets/javascripts/lib/records/mixins/with_file.js:53-55 | once a non-empty name was derived, changing `filePath` does not change what the getter returns |
| `WithFile.FileNameOfPath` | assets/javascripts/lib/records/mixins/with_file.js:55 | a path `prefix/name` with a slash-free, non-empty `name` yields the name `name` |
| `Strings.Split` | assets/javascripts/lib/records/mixins/with_file.js:55 | `split` gives at least one piece; its partners `Strings.JoinSplit` and `Strings.SplitJoin` state that joining the pieces gives the string back and that splitting a join of separator-free pieces gives the pieces back |
| `Strings.JoinSplit` | assets/javascripts/lib/records/mixins/with_file.js:55 | joining the pieces of a `split` with the separator gives the string back |
| `Strings.SplitJoin` | assets/javascripts/lib/records/mixins/with_file.js:55 | splitting a join of separator-free pieces gives those pieces back |
| `Strings.LastSegment` | assets/javascripts/lib/records/mixins/with_file.js:55 | `split('/').pop()` is the text after the last `/`: it holds no `/`, ends the string, and is the whole string when there is no `/` |
| `Js.LessOrEqual` | assets/javascripts/lib/records/mixins/with_file.js:18 | `x <= limit` compares a number as itself and `null` as 0, and is false for `undefined` and `NaN` |
| `Js.Greater` | assets/javascripts/lib/records/mixins/with_file.js:21 | `x > limit` compares a number as itself and `null` as 0, and is false for `undefined` and `NaN` |
| `Js.Trichotomy` | assets/javascripts/lib/records/mixins/with_file.js:18-25 | for a value that converts to a number exactly one of the two branches is taken; for `undefined` and `NaN` neither, so the `throw` is reached |
| `WithFile.GetUploader` | assets/javascripts/lib/records/mixins/with_file.js:15-31 | size `<=` limit (including null) gives the single uploader and a larger size the partitioned one; it fails with "missing 'fileSize'" exactly for undefined/NaN; the chosen uploader carries every given callback |
| `WithFile.BeforeSave` | assets/javascripts/lib/records/mixins/with_file.js:130-139 | a truthy `filePath` is kept; otherwise it becomes 24 alphanumerics, `/`, then the file name; the uploader is chosen by size with all upload callbacks attached; `numParts` becomes the upload's result; a missing size throws after the path was set; callbacks, size, cached name and downloader are unchanged |
| `WithFile.SecondSaveKeepsPath` | assets/javascripts/lib/records/mixins/with_file.js:131 | a second save keeps the path the first save generated |
| `WithFile.SavedPathNamesFile` | assets/javascripts/lib/records/mixins/with_file.js:130-131 | a record named `n` (slash-free) without a path is saved under `hash/n`, and deriving the name from that path gives `n` back |
| `GaiaDocument.SaveExample` | assets/javascripts/lib/gaia_document.test.js:13-24 | saving a document built by `GaiaDocument.New` from only the file name `name.pdf` and size 500 gives a path matching `^[a-zA-Z0-9]{24}\/name\.pdf$` |
| `Js.DecimalRoundTrip` | assets/javascripts/lib/records/mixins/with_file.js:113 | the decimal text of a part index reads back as that index |
| `WithFile.PartName` | assets/javascripts/lib/records/mixins/with_file.js:113 | the part name is the interpolated `filePath`, then `.part`, then digits that read as the index |
| `WithFile.PartNameRoundTrip` | assets/javascripts/lib/records/mixins/with_file.js:113 | the name `filePath.part<i>` says which part it holds |
| `WithFile.PartIndexNamesPart` | assets/javascripts/lib/records/mixins/with_file.js:113 | a name is read as part i exactly when it is `${filePath}.part${i}`, with no leading zeros |
| `WithFile.GetPartUrls` | assets/javascripts/lib/records/mixins/with_file.js:108-114 | no names for a falsy `numParts`; otherwise exactly `numParts` names, the i-th being `${filePath}.part${i}` and read back as part i; a length `new Array` refuses throws |
| `WithFile.PartUrlsDistinct` | assets/javascripts/lib/records/mixins/with_file.js:111-113 | no two part names of a record coincide |
| `WithFile.Serialize` | assets/javascripts/lib/records/mixins/with_file.js:116-123 | each of `filePath`/`fileSize`/`numParts` is emitted unchanged when truthy and as null when falsy (including 0 and ""); nothing falsy but null is emitted |
| `WithFile.SerializeStable` | assets/javascripts/lib/records/mixins/with_file.js:116-123 | serializing a record rebuilt from serialized attributes gives the same attributes |
| `WithFile.SerializeIgnoresCaches` | assets/javascripts/lib/records/mixins/with_file.js:116-123 | serialization depends only on the three attributes, not on the cached name, callbacks or transfer objects |
| `WithFile.OnUploadProgress` | assets/javascripts/lib/records/mixins/with_file.js:91-102 | a non-function throws and changes nothing; a function is appended and attached to the current uploader if any, nothing else changes; every callback stays attached |
| `WithFile.OnDownloadProgress` | assets/javascripts/lib/records/mixins/with_file.js:78-89 | the same for download callbacks and the current downloader |
| `WithFile.Download` | assets/javascripts/lib/records/mixins/with_file.js:62-76 | the partitioned path is taken exactly when `numParts > 1`, with a downloader carrying every download callback; otherwise the file URL is requested without decryption or verification and, when it resolves, each download callback is invoked once with 1, in order |
| `GaiaDocument.New` | assets/javascripts/lib/gaia_document.test.js:90-101 | a document built from current names keeps the id, `filePath`, `fileSize`, `numParts`, `createdAt` and `uploaded` given, is the current version, caches the `fileName` given (or none), and has no owner name, no callbacks, no uploader and no downloader |
| `GaiaDocument.Load` | assets/javascripts/lib/gaia_document.test.js:38-51 | a payload without a version (or version 1) loads as version 1 with `url`, `size`, `num_parts`, `created_at`, `uploaded`, `id` as `filePath`, `fileSize`, `numParts`, `createdAt`, `uploaded`, `id`, with a fresh file state; other versions fail |
| `GaiaDocument.Get` | assets/javascripts/lib/gaia_document.test.js:38-51 | a failed read fails with the same error; a read payload gives a document exactly when its version is absent or 1, and that document carries the payload's fields under the current names, with a fresh file state |
| `GaiaDocument.FromGaiaIndex` | assets/javascripts/lib/gaia_document.test.js:54-65 | an indexed payload gives a document exactly when its version is absent or 1, carrying the payload's fields under the current names, with a fresh file state |
| `GaiaDocument.LoadedExample` | assets/javascripts/lib/gaia_document.test.js:29-36 | any document loaded from the test payload has `filePath` `abcdef/name.pdf`, `fileName` `name.pdf`, size 500, 2 parts, the test date, uploaded and version 1 |
| `GaiaDocument.GetExample` | assets/javascripts/lib/gaia_document.test.js:38-51 | `get` of the test payload succeeds with the values the test expects |
| `GaiaDocument.IndexExample` | assets/javascripts/lib/gaia_document.test.js:54-65 | `fromGaiaIndex` of the test payload succeeds with the values the test expects |
| `GaiaDocument.ToJson` | assets/javascripts/lib/gaia_document.test.js:75-85 | the JSON uses the version-1 names with the document's values, `version` 1, `localId` equal to `id`, `content_type` null |
| `GaiaDocument.NewAndLoadedAgree` | assets/javascripts/lib/gaia_document.test.js:69-116 | a document built from current names and one loaded from the same values in version-1 names serialize identically |
| `GaiaDocument.V1RoundTrip` | assets/javascripts/lib/gaia_document.test.js:69-88 | loading a version-1 payload and serializing it reproduces every field it had |
| `GaiaDocument.JsonReloads` | assets/javascripts/lib/gaia_document.test.js:69-88 | loading the JSON of a loaded document gives that document again |
| `GaiaDocument.SerializeExample` | assets/javascripts/lib/gaia_document.test.js:69-116 | both test documents serialize to the expected JSON |
| `App.Any` | assets/javascripts/components/app.jsx:56 | `files.some(p)` holds exactly when some file satisfies `p` |
| `App.UploadFiles` | assets/javascripts/components/app.jsx:55-71 | any oversize file refuses the batch with the maximum-size dialog and no call, even when a file is empty; otherwise any empty file refuses it with the empty-file dialog; otherwise the list becomes one new document object per file, in file order and with identities `next`, `next+1`, …, followed by the previous list, and those documents go to the remote index |
| `App.UploadKeepsDistinct` | assets/javascripts/components/app.jsx:67-68 | since `fromFile` creates a new object per file, an accepted batch leaves no object twice in a list that had none twice |
| `App.ShowEmptyState` | assets/javascripts/components/app.jsx:86-88 | the empty state shows exactly when loading has finished and the list is empty |
| `App.EmptyStateRule` | assets/javascripts/components/app.jsx:22-25 | the page as constructed is loading, so it does not show the empty state, and neither does a page that accepted a non-empty batch |
| `App.Mount` | assets/javascripts/components/app.jsx:28-48 | a rejected local load changes nothing; pending local documents are shown and handed to `addDocuments`, without loading the remote index, and cleared with loading ended only if that resolves; with none pending the remote index is loaded, and loading ends only if that resolves |
| `App.MigratedOnce` | assets/javascripts/components/app.jsx:36-44 | after a startup whose hand-over resolved, a second startup adds nothing and loads the remote index, so pending documents are added exactly once |
| `App.FailedMigrationRetried` | assets/javascripts/components/app.jsx:36-44 | a rejected hand-over leaves the page loading with the documents still pending, and the next startup hands them over again |
| `App.OnIndexChange` | assets/javascripts/components/app.jsx:30-32 | an index change replaces the shown list and nothing else |
| `App.OnDocumentDelete` | assets/javascripts/components/app.jsx:73-79 | asking to delete only opens the confirmation dialog for that document |
| `App.OnConfirmDelete` | assets/javascripts/components/app.jsx:81-84 | confirming marks that document as deleting, changes nothing else, and asks the remote index to delete it |
| `App.ConfirmedDeleteFlagsOneCard` | assets/javascripts/components/app.jsx:81-84 | after a confirmed delete of a listed document, exactly one card is shown as deleting, and it is that document's |
| `App.RelistedDeleteStillFlagged` | assets/javascripts/components/app.jsx:30-32 | if the remote index then re-lists the same object with changed attributes, that object's card is still the only one flagged |
| `Strings.Segments` | assets/javascripts/components/download.jsx:15 | `split('/').filter(s => s)` gives non-empty, slash-free pieces; its partners state that leading, trailing and doubled slashes do not change them, and that the segments of a join of slash-free pieces are its non-empty pieces |
| `Download.ParseUrl` | assets/javascripts/components/download.jsx:14-20 | parsing succeeds exactly when the path has three non-empty `/`-segments, giving username = second and hash = third, both non-empty and slash-free; otherwise it fails quoting the path |
| `Download.ParseIgnoresExtraSlashes` | assets/javascripts/components/download.jsx:15 | leading, trailing and doubled slashes do not change the parse |
| `Download.ParseThreeSegments` | assets/javascripts/components/download.jsx:15-19 | `/<any>/<user>/<hash>` parses to that user and hash whatever the first segment is |
| `Download.NormalizeUsername` | assets/javascripts/components/download.jsx:31-34 | the result always contains a `.`; a name with a `.` is unchanged and one without gets `.id.blockstack` |
| `Download.NormalizeIdempotent` | assets/javascripts/components/download.jsx:32-33 | normalizing twice is normalizing once |
| `Download.Mount` | assets/javascripts/components/download.jsx:28-36 | an invalid path fails before any download is requested; a valid one requests the normalized owner and the hash |
| `DocumentList.SortDocuments` | assets/javascripts/components/document_list.jsx:9-13 | the result is a permutation of the input, of the same length, with creation dates non-increasing |
| `DocumentList.Sort` | assets/javascripts/components/document_list.jsx:9-13 | the page's sort gives a permutation of the list, newest first when every document is dated, and the engine's order otherwise |
| `DocumentList.SortInPlace` | assets/javascripts/components/document_list.jsx:10 | the caller's array is reordered into the page's sort order and is the array returned |
| `DocumentList.IsDeleting` | assets/javascripts/components/document_list.jsx:22 | `props.deleting === doc` holds only when something is being deleted, and always for the very object being deleted |
| `DocumentList.IdentityNotAttributes` | assets/javascripts/components/document_list.jsx:22 | whether a card is flagged depends only on the two objects' identities, not on their attributes |
| `DocumentList.Cards` | assets/javascripts/components/document_list.jsx:15-31 | one card per document, the documents a permutation of the list and newest first when all are dated; a card is flagged deleting exactly when its document is the very object being deleted, compared by identity and not by attributes |
| `DocumentList.OneCardDeleting` | assets/javascripts/components/document_list.jsx:22 | in a list of distinct objects containing the object being deleted, exactly one card is flagged, and it shows that object as listed, even when the deleting reference holds older attributes |
| `DocumentCard.Render` | assets/javascripts/components/document_card.jsx:9-44 | the title holds no `/`, ends `url` after its last `/` and equals `url` without one; the copied and the opened link are both the share URL of the card's id |
| `DocumentCard.ShareUrl` | assets/javascripts/components/document_card.jsx:9-12 | the share URL is the origin followed by exactly `/d/`, the interpolated username (`null` when there is none), `/` and the id; that path parses back to the same username text and id when both are non-empty and slash-free |
| `DocumentCard.ShareUrlParses` | assets/javascripts/components/document_card.jsx:9-11 | the part of `ShareUrl` after the origin is `/d/<username>/<id>`, and the page's mount resolves it to a fetch of the normalized username and the id when both are non-empty and slash-free |
| `DocumentCard.SharePathParses` | assets/javascripts/components/document_card.jsx:11 | for a non-empty, slash-free username and id the share path parses to that username and hash = id |
| `DocumentCard.ShareLinkResolves` | assets/javascripts/components/document_card.jsx:11 | following a share link, the download page requests the id from the owner's normalized namespace |
| `DocumentCard.NullUsernameLink` | assets/javascripts/components/document_card.jsx:10-11 | without a session username the link reads `/d/null/<id>`, and the download page looks the document up under `null.id.blockstack` |
| `Strings.ReplaceFirst` | assets/javascripts/components/avatar.jsx:48 | `replace` with a string pattern removes only the first occurrence and leaves a string without it unchanged |
| `Avatar.StripNamespace` | assets/javascripts/components/avatar.jsx:48 | a username without `.id.blockstack` is unchanged, and otherwise the first occurrence of the suffix, and only it, is cut out |
| `Avatar.StripQualified` | assets/javascripts/components/avatar.jsx:48 | stripping a dot-free name followed by `.id.blockstack` gives the name back |
| `Avatar.DisplayName` | assets/javascripts/components/avatar.jsx:44-51 | a truthy name wins; then a truthy username with its first `.id.blockstack` removed, unless that leaves ""; then a truthy email; then the decentralized id |
| `Avatar.UnqualifiedUsernameShown` | assets/javascripts/components/avatar.jsx:48 | a username without the suffix is shown unchanged |
| `Avatar.NormalizedUsernameShownBare` | assets/javascripts/components/avatar.jsx:48 | a dot-free name qualified as the download page does is shown bare again |
| `Avatar.SuffixOnlyFallsThrough` | assets/javascripts/components/avatar.jsx:47-50 | a username that is exactly `.id.blockstack` falls through to the email, then the decentralized id |
| `Avatar.AvatarUrl` | assets/javascripts/components/avatar.jsx:39-42 | the profile picture when truthy, `/images/default-avatar.png` otherwise; never empty |

## Left out

- Rendering is not modelled: the DOM, `window`, menus, toasts, the clipboard and the dialogs' own state. Only the dialog kind chosen is modelled.
- `setSize` and the menu's `onSelect` in `avatar.jsx` are left out. They deal in floating-point coordinates and window navigation.
- `formatDate` and `formatSize` in `document_card.jsx` are left out. They depend on locale, time zone and the `pretty-bytes` library.
- `getMimeType` (`with_file.js:104-106`) is left out. It is a `mime-types` library lookup.
- The `beforeDelete` hook (`with_file.js:126-128`) is left out. It only delegates to `DocumentRemover`, which is not part of this model.
- The uploaders, the partitioned downloader, `DocumentRemover`, `GaiaIndex`, `LocalIndex`, `FileDownloader` and `GaiaDocument.fromFile` are not part of this model. Chunk splitting, reassembly, best-effort deletion and change notification are therefore not modelled.
- The base record is not part of this model. This leaves out its attribute defaults, its own serialized fields (merged by `super.serialize()`), `save`/`delete` and hook ordering. Attribute values are carried over as given.
- `App.Mount` does not model the change handler's registration (line 30) or a rejection of the handler's own work. A rejection of an awaited index call is modelled; what `Page.preventClose` then does with the rejected promise is not.
- `Page.preventClose`, `async`/`await` ordering and concurrency are left out. In particular, the remote index may later replace the list through its change handler while `addDocuments` runs.
- `handleInputChange` is left out. It clears the file input, which is DOM only.
- The JSON text encoding of payloads is left out. Dates are milliseconds since the epoch, and `JSON.parse` of the stored string is taken as done.
- `GaiaDocument.Load` treats a payload whose version is neither absent nor 1 as a failure. How the record loads other versions is in code that is not part of this model.
- `GaiaDocument.Get` and `GaiaDocument.FromGaiaIndex`: the code of `get` and `fromGaiaIndex` (in `lib/gaia_document.js`) is not part of this model. Both are modelled as loading the payload, which is what the tests observe, so that the two routes agree is an assumption of the model, not a proved fact.
- `DocumentList.SortDocuments` requires every document to have a creation date. It also does not state that documents with equal dates keep their input order, although the definition keeps it.
- `DocumentList.Sort`, `DocumentList.SortInPlace` and `DocumentList.Cards` take the engine's order as an argument whenever a document has no date. For `undefined`, `new Date(undefined)` is an invalid date, the comparator returns NaN and the order is engine-defined. For `null`, `new Date(null)` is the epoch, so the order is defined: null dates sort as time 0, last. The model's missing date stands for both `null` and `undefined`, so it does not state that defined order.
- `WithFile.FileRecord` holds numeric attributes as integers, `null`, `undefined` or `NaN`. Fractional sizes and non-number values in numeric attributes are not modelled.
- The card reads `url` and `id` as its own props, while the list passes the document as `doc`. The model takes the card's props as given.

=== FILE: app.dfy ===
/**
 * The main page's decisions over its document list: which batches of files
 * are admitted for upload, when the empty state is shown, how documents
 * created before the remote index was ready are migrated on startup, and how
 * a confirmed delete is recorded. The indexes are collaborators whose code
 * is not part of this model: what the page asks of them is returned as a
 * list of calls.
 */
module App {
  import opened Wrappers
  import GaiaDocument
  import DocumentList

  type Instance = DocumentList.Instance

  /** A selected or dropped file, as admission sees it: only its size. The document it becomes is built by `fromFile`. */
  datatype File = File(size: nat)

  /** The dialog the page opens. */
  datatype Dialog = MaximumFileSize | EmptyFile | DeleteConfirmation(doc: Instance)

  /** A request the page makes of the remote index (`gaiaIndex`) or the local index (`localIndex`). */
  datatype IndexCall =
    | AddDocuments(docs: seq<Instance>)
    | DeleteDocument(doc: Instance)
    | LoadRemote
    | SetTempDocuments(docs: seq<Instance>)

  /** The page state: the documents shown, the one being deleted, whether the list is still loading, the open dialog. */
  datatype State = State(documents: seq<Instance>, deleting: Option<Instance>, loading: bool, dialog: Option<Dialog>)

  /** The state after a handler ran, and the index calls it made, in order. */
  datatype Step = Step(state: State, calls: seq<IndexCall>)

  /** The state the page is constructed with. */
  const Initial := State([], None, true, None)

  /** `files.some(p)`. */
  function Any(files: seq<File>, p: File -> bool): (r: bool)
    ensures r <==> exists i :: 0 <= i < |files| && p(files[i])
    decreases |files|
  {
    if files == [] then false
    else if p(files[0]) then true
    else
      var rest := Any(files[1..], p);
      assert forall i :: 1 <= i < |files| ==> files[i] == files[1..][i - 1];
      rest
  }

  /**
   * `uploadFiles`: a batch with any file over the size limit is refused
   * with the maximum-size dialog; otherwise a batch with any empty file is
   * refused with the empty-file dialog; otherwise one new document object
   * per file (its attributes made by `fromFile`, in file order) is put in
   * front of the list and handed to the remote index. `GaiaDocument.fromFile`
   * creates a new object each time: the i-th gets the identity `next + i`,
   * where `next` is the first identity not yet in use.
   */
  function UploadFiles(st: State, files: seq<File>, fileSizeLimit: int, fromFile: File -> GaiaDocument.Document, next: nat): (r: Step)
    ensures (exists i :: 0 <= i < |files| && files[i].size > fileSizeLimit) ==>
      r == Step(st.(dialog := Some(MaximumFileSize)), [])
    ensures (forall i :: 0 <= i < |files| ==> files[i].size <= fileSizeLimit) &&
            (exists i :: 0 <= i < |files| && files[i].size == 0) ==>
      r == Step(st.(dialog := Some(EmptyFile)), [])
    ensures (forall i :: 0 <= i < |files| ==> 0 < files[i].size <= fileSizeLimit) ==>
      && |r.state.documents| == |files| + |st.documents|
      && (forall i :: 0 <= i < |files| ==> r.state.documents[i] == DocumentList.Instance(next + i, fromFile(files[i])))
      && r.state.documents[|files|..] == st.documents
      && r.state == st.(documents := r.state.documents)
      && r.calls == [AddDocuments(r.state.documents[..|files|])]
  {
    if Any(files, (f: File) => f.size > fileSizeLimit) then Step(st.(dialog := Some(MaximumFileSize)), [])
    else if Any(files, (f: File) => f.size == 0) then Step(st.(dialog := Some(EmptyFile)), [])
    else
      var created := seq(|files|, i requires 0 <= i < |files| => DocumentList.Instance(next + i, fromFile(files[i])));
      assert (created + st.documents)[..|files|] == created;
      assert (created + st.documents)[|files|..] == st.documents;
      Step(st.(documents := created + st.documents), [AddDocuments(created)])
  }

  /** An accepted batch keeps the list free of repeated objects, since every new object has an unused identity. */
  lemma UploadKeepsDistinct(st: State, files: seq<File>, fileSizeLimit: int, fromFile: File -> GaiaDocument.Document, next: nat)
    requires DocumentList.Distinct(st.documents)
    requires forall k :: 0 <= k < |st.documents| ==> st.documents[k].handle < next
    requires forall i :: 0 <= i < |files| ==> 0 < files[i].size <= fileSizeLimit
    ensures DocumentList.Distinct(UploadFiles(st, files, fileSizeLimit, fromFile, next).state.documents)
  {
    var docs := UploadFiles(st, files, fileSizeLimit, fromFile, next).state.documents;
    forall i, j | 0 <= i < j < |docs|
      ensures docs[i].handle != docs[j].handle
    {
      if j >= |files| {
        assert docs[j] == docs[|files|..][j - |files|] == st.documents[j - |files|];
        if i >= |files| {
          assert docs[i] == docs[|files|..][i - |files|] == st.documents[i - |files|];
        }
      }
    }
  }

  /** `showEmptyState`: only once loading finished and the list is empty. */
  function ShowEmptyState(st: State): (r: bool)
    ensures r <==> !st.loading && |st.documents| == 0
  {
    !st.loading && st.documents == []
  }

  /** The empty state is never shown on the page as constructed, nor after a non-empty batch was accepted. */
  lemma EmptyStateRule(st: State, files: seq<File>, fileSizeLimit: int, fromFile: File -> GaiaDocument.Document, next: nat)
    ensures !ShowEmptyState(Initial)
    ensures files != [] && (forall i :: 0 <= i < |files| ==> 0 < files[i].size <= fileSizeLimit) ==>
      !ShowEmptyState(UploadFiles(st, files, fileSizeLimit, fromFile, next).state)
  {
  }

  /** What startup leaves behind: the page step and the local index's pending documents afterwards. */
  datatype Startup = Startup(step: Step, pending: seq<Instance>)

  /**
   * `componentDidMount`. `local` is how the local index's `load` settled,
   * after which it holds `pending`; `remote` is how the one remote-index call
   * settled. Pending documents are shown and handed to the remote index
   * (which is then not loaded), and cleared from the local index once the
   * hand-over resolved; with none pending the remote index is loaded.
   * Loading ends only if every awaited call resolved: a rejection stops the
   * rest of the body, so loading stays on and the pending documents stay.
   */
  function Mount(st: State, pending: seq<Instance>, local: Result<(), string>, remote: Result<(), string>): (r: Startup)
    ensures local.Failure? ==> r == Startup(Step(st, []), pending)
    ensures local.Success? && pending != [] ==>
      && r.step.state.documents == pending
      && |r.step.calls| >= 1 && r.step.calls[0] == AddDocuments(pending)
      && LoadRemote !in r.step.calls
      && (remote.Success? ==> r.step.calls == [AddDocuments(pending), SetTempDocuments([])] && r.pending == [] && !r.step.state.loading)
      && (remote.Failure? ==> r.step.calls == [AddDocuments(pending)] && r.pending == pending && r.step.state.loading == st.loading)
    ensures local.Success? && pending == [] ==>
      && r.step.state.documents == st.documents && r.step.calls == [LoadRemote] && r.pending == []
      && (remote.Success? ==> !r.step.state.loading)
      && (remote.Failure? ==> r.step.state.loading == st.loading)
    ensures r.step.state.deleting == st.deleting && r.step.state.dialog == st.dialog
  {
    if local.Failure? then Startup(Step(st, []), pending)
    else if |pending| > 0 then
      var shown := st.(documents := pending);
      if remote.Failure? then Startup(Step(shown, [AddDocuments(pending)]), pending)
      else Startup(Step(shown.(loading := false), [AddDocuments(pending), SetTempDocuments([])]), [])
    else if remote.Failure? then Startup(Step(st, [LoadRemote]), pending)
    else Startup(Step(st.(loading := false), [LoadRemote]), pending)
  }

  /** How many `addDocuments` calls a list of calls holds. */
  function AddCount(calls: seq<IndexCall>): nat {
    if calls == [] then 0
    else (if calls[0].AddDocuments? then 1 else 0) + AddCount(calls[1..])
  }

  /**
   * Pending documents are migrated exactly once: after a startup whose
   * hand-over resolved, a second startup finds the local index empty and
   * loads the remote index instead.
   */
  lemma MigratedOnce(st: State, pending: seq<Instance>, remote: Result<(), string>)
    requires pending != []
    ensures var first := Mount(st, pending, Success(()), Success(()));
      var second := Mount(first.step.state, first.pending, Success(()), remote);
      && AddCount(first.step.calls) + AddCount(second.step.calls) == 1
      && second.step.calls == [LoadRemote]
      && !ShowEmptyState(first.step.state)
  {
    var first := Mount(st, pending, Success(()), Success(()));
    var calls := first.step.calls;
    assert calls[1..] == [SetTempDocuments([])];
    assert calls[1..][1..] == [];
    assert AddCount(calls[1..]) == 0;
    var second := Mount(first.step.state, first.pending, Success(()), remote);
    assert second.step.calls[1..] == [];
  }

  /**
   * A rejected hand-over leaves the page loading, so the empty state never
   * shows, and keeps the documents pending: the next startup hands them over
   * again.
   */
  lemma FailedMigrationRetried(pending: seq<Instance>, e: string, remote: Result<(), string>)
    requires pending != []
    ensures var first := Mount(Initial, pending, Success(()), Failure(e));
      var second := Mount(Initial, first.pending, Success(()), remote);
      && first.step.state.loading && !ShowEmptyState(first.step.state)
      && first.pending == pending
      && |second.step.calls| >= 1 && second.step.calls[0] == AddDocuments(pending)
  {
  }

  /** The remote index's change handler: the list becomes the index's documents. */
  function OnIndexChange(st: State, documents: seq<Instance>): (r: State)
    ensures r.documents == documents
    ensures r.(documents := st.documents) == st
  {
    st.(documents := documents)
  }

  /** `onDocumentDelete`: asks for confirmation before anything is deleted. */
  function OnDocumentDelete(st: State, doc: Instance): (r: Step)
    ensures r.calls == []
    ensures r.state == st.(dialog := Some(DeleteConfirmation(doc)))
  {
    Step(st.(dialog := Some(DeleteConfirmation(doc))), [])
  }

  /** `onConfirmDelete`: marks the document as being deleted, then asks the remote index to delete it. */
  function OnConfirmDelete(st: State, doc: Instance): (r: Step)
    ensures r.state.deleting == Some(doc)
    ensures r.state.(deleting := st.deleting) == st
    ensures r.calls == [DeleteDocument(doc)]
  {
    Step(st.(deleting := Some(doc)), [DeleteDocument(doc)])
  }

  /**
   * After a confirmed delete of a listed document (in a list of distinct,
   * dated documents), exactly one card is shown as deleting: that document's.
   */
  lemma ConfirmedDeleteFlagsOneCard(st: State, doc: Instance, engine: seq<Instance>)
    requires multiset(engine) == multiset(st.documents)
    requires DocumentList.Distinct(st.documents) && doc in st.documents
    ensures var after := OnConfirmDelete(st, doc).state;
      var cards := DocumentList.Cards(after.documents, after.deleting, engine);
      && (exists i :: 0 <= i < |cards| && cards[i].deleting && cards[i].doc == doc)
      && forall i, j :: 0 <= i < j < |cards| ==> !(cards[i].deleting && cards[j].deleting)
  {
    DocumentList.OneCardDeleting(st.documents, engine, doc, doc);
  }

  /**
   * If the remote index then re-lists the same object with changed
   * attributes, its card is still the one flagged as deleting.
   */
  lemma RelistedDeleteStillFlagged(st: State, doc: Instance, documents: seq<Instance>, relisted: Instance, engine: seq<Instance>)
    requires multiset(engine) == multiset(documents)
    requires DocumentList.Distinct(documents)
    requires relisted in documents && relisted.handle == doc.handle
    ensures var after := OnIndexChange(OnConfirmDelete(st, doc).state, documents);
      var cards := DocumentList.Cards(after.documents, after.deleting, engine);
      && (exists i :: 0 <= i < |cards| && cards[i].deleting && cards[i].doc == relisted)
      && forall i, j :: 0 <= i < j < |cards| ==> !(cards[i].deleting && cards[j].deleting)
  {
    DocumentList.OneCardDeleting(documents, engine, relisted, doc);
  }
}

=== FILE: avatar.dfy ===
/**
 * The avatar menu's display name and picture: the display name falls back
 * from the profile name, to the username without its namespace suffix, to
 * the email, to the decentralized id; the picture falls back to a default
 * image.
 */
module Avatar {
  import opened Wrappers
  import opened Js
  import Strings
  import Download

  const DEFAULT_AVATAR := "/images/default-avatar.png"

  /** The session's user data the menu reads. */
  datatype User = User(username: Option<string>, email: Option<string>, decentralizedID: Option<string>)

  /** `username.replace('.id.blockstack', '')`: the first occurrence of the suffix removed. */
  function StripNamespace(username: string): (r: string)
    ensures Strings.Absent(username, Download.NAMESPACE_SUFFIX) ==> r == username
    ensures forall k :: Strings.FirstOccurrence(username, Download.NAMESPACE_SUFFIX, k) ==>
      r == username[..k] + username[k + |Download.NAMESPACE_SUFFIX|..]
    ensures |r| == |username| || |r| + |Download.NAMESPACE_SUFFIX| == |username|
  {
    Strings.ReplaceFirst(username, Download.NAMESPACE_SUFFIX, "")
  }

  /**
   * `displayName`: `name || username && username.replace(...) || email || decentralizedID`.
   * A truthy profile name wins; then a truthy username with its suffix
   * removed, unless that leaves `""`; then a truthy email; and otherwise the
   * decentralized id, whatever it is.
   */
  function DisplayName(personName: Option<string>, user: User): (r: Option<string>)
    ensures StringTruthy(personName) ==> r == personName
    ensures !StringTruthy(personName) && StringTruthy(user.username) && StripNamespace(user.username.value) != "" ==>
      r == Some(StripNamespace(user.username.value))
    ensures !StringTruthy(personName) && !(StringTruthy(user.username) && StripNamespace(user.username.value) != "") ==>
      r == (if StringTruthy(user.email) then user.email else user.decentralizedID)
    ensures r == personName || r == user.email || r == user.decentralizedID ||
      (user.username.Some? && r == Some(StripNamespace(user.username.value)))
  {
    if StringTruthy(personName) then personName
    else if StringTruthy(user.username) && StripNamespace(user.username.value) != "" then Some(StripNamespace(user.username.value))
    else if StringTruthy(user.email) then user.email
    else user.decentralizedID
  }

  /** A username without the suffix is shown unchanged. */
  lemma UnqualifiedUsernameShown(username: string, user: User)
    requires username != "" && user.username == Some(username)
    requires Strings.Absent(username, Download.NAMESPACE_SUFFIX)
    ensures DisplayName(None, user) == Some(username)
  {
  }

  /** The name qualified by the download page is shown as the bare name: stripping undoes the normalization. */
  lemma {:induction false} NormalizedUsernameShownBare(bare: string, user: User)
    requires bare != "" && '.' !in bare
    requires user.username == Some(Download.NormalizeUsername(bare))
    ensures DisplayName(None, user) == Some(bare)
  {
    StripQualified(bare);
  }

  /** Stripping a dot-free name followed by the suffix gives the name. */
  lemma {:induction false} StripQualified(bare: string)
    requires '.' !in bare
    ensures StripNamespace(bare + Download.NAMESPACE_SUFFIX) == bare
  {
    var s := bare + Download.NAMESPACE_SUFFIX;
    var pat := Download.NAMESPACE_SUFFIX;
    SuffixFirstOccurrence(bare);
    assert s[..|bare|] + "" + s[|bare| + |pat|..] == bare;
  }

  /** In a dot-free name followed by the suffix, the suffix first occurs right after the name. */
  lemma {:induction false} SuffixFirstOccurrence(bare: string)
    requires '.' !in bare
    ensures Strings.FirstOccurrence(bare + Download.NAMESPACE_SUFFIX, Download.NAMESPACE_SUFFIX, |bare|)
  {
    var s := bare + Download.NAMESPACE_SUFFIX;
    var pat := Download.NAMESPACE_SUFFIX;
    assert s[|bare|..|bare| + |pat|] == pat;
    forall j | 0 <= j < |bare|
      ensures !Strings.OccursAt(s, pat, j)
    {
      assert s[j] == bare[j] != '.';
    }
  }

  /** A username that is only the suffix strips to `""`, so the email or the decentralized id is shown. */
  lemma SuffixOnlyFallsThrough(user: User)
    requires user.username == Some(Download.NAMESPACE_SUFFIX)
    ensures DisplayName(None, user) == (if StringTruthy(user.email) then user.email else user.decentralizedID)
  {
    var pat := Download.NAMESPACE_SUFFIX;
    assert Strings.OccursAt(pat, pat, 0) by { assert pat[0..|pat|] == pat; }
    assert pat[..0] + "" + pat[|pat|..] == "";
  }

  /** `avatarUrl`: the profile's picture when truthy, the default image otherwise; never empty. */
  function AvatarUrl(personAvatar: Option<string>): (r: string)
    ensures r != ""
    ensures StringTruthy(personAvatar) ==> r == personAvatar.value
    ensures !StringTruthy(personAvatar) ==> r == DEFAULT_AVATAR
  {
    if StringTruthy(personAvatar) then personAvatar.value else DEFAULT_AVATAR
  }
}

=== FILE: document_card.dfy ===
/**
 * A document card: its title is the last `/`-segment of the document's
 * `url`, and both its "copy link" action and its "open" link use the share
 * URL `origin/d/<username>/<id>`, which the download page parses back. The
 * session's username may be `null`, which the template writes as `null`.
 */
module DocumentCard {
  import opened Wrappers
  import Js
  import Strings
  import Download

  /** The card's properties that the title and share link read. */
  datatype Props = Props(id: string, url: string)

  /** What a card shows: the title, the "open" link target, and the text the copy action puts on the clipboard. */
  datatype CardView = CardView(title: string, openHref: string, copiedLink: string)

  /** The path part of a share URL, with the username interpolated. */
  function SharePath(username: Option<string>, id: string): string {
    "/d/" + Js.Show(username) + "/" + id
  }

  /** The share path of a non-empty, slash-free username and id parses back to them. */
  lemma SharePathParses(username: string, id: string)
    requires username != "" && '/' !in username
    requires id != "" && '/' !in id
    ensures Download.ParseUrl(SharePath(Some(username), id)) == Success(Download.UrlData(id, username))
  {
    assert SharePath(Some(username), id) == "/" + "d" + "/" + username + "/" + id;
    Download.ParseThreeSegments("d", username, id);
  }

  /** What the share path parses to when the interpolated username and the id are non-empty and slash-free. */
  lemma SharePathParsesAny(username: Option<string>, id: string)
    ensures var name := Js.Show(username);
      name != "" && '/' !in name && id != "" && '/' !in id ==>
      Download.ParseUrl(SharePath(username, id)) == Success(Download.UrlData(id, name))
  {
    var name := Js.Show(username);
    if name != "" && '/' !in name && id != "" && '/' !in id {
      assert SharePath(username, id) == SharePath(Some(name), id);
      SharePathParses(name, id);
    }
  }

  /**
   * `shareUrl`: the page origin followed by `/d/<username>/<id>`; the path
   * after the origin parses back to the interpolated username and the id.
   */
  function ShareUrl(origin: string, username: Option<string>, id: string): (u: string)
    ensures |origin| < |u| && u[..|origin|] == origin
    ensures u[|origin|..] == "/d/" + Js.Show(username) + "/" + id
    ensures var name := Js.Show(username);
      name != "" && '/' !in name && id != "" && '/' !in id ==>
      Download.ParseUrl(u[|origin|..]) == Success(Download.UrlData(id, name))
  {
    SharePathParsesAny(username, id);
    var u := origin + SharePath(username, id);
    assert u[|origin|..] == SharePath(username, id);
    u
  }

  /** The path of a share URL is `/d/<username>/<id>`, and the download page reads that username and id back from it. */
  lemma ShareUrlParses(origin: string, username: Option<string>, id: string)
    ensures ShareUrl(origin, username, id)[|origin|..] == "/d/" + Js.Show(username) + "/" + id
    ensures var name := Js.Show(username);
      name != "" && '/' !in name && id != "" && '/' !in id ==>
      Download.Mount(ShareUrl(origin, username, id)[|origin|..]) == Success(Download.FetchRequest(Download.NormalizeUsername(name), id))
  {
  }

  /** Following a share link, the download page fetches that document from the owner's normalized namespace. */
  lemma ShareLinkResolves(username: string, id: string)
    requires username != "" && '/' !in username
    requires id != "" && '/' !in id
    ensures Download.Mount(SharePath(Some(username), id)) == Success(Download.FetchRequest(Download.NormalizeUsername(username), id))
  {
    SharePathParses(username, id);
  }

  /** The link a card builds without a session username. */
  lemma NullUsernamePath(id: string)
    ensures SharePath(None, id) == SharePath(Some("null"), id) == "/d/null/" + id
  {
  }

  /**
   * Without a session username the link reads `/d/null/<id>`, and the
   * download page looks the document up under `null.id.blockstack`.
   */
  lemma NullUsernameLink(id: string)
    requires id != "" && '/' !in id
    ensures Download.Mount(SharePath(None, id)) == Success(Download.FetchRequest("null.id.blockstack", id))
  {
    NullUsernamePath(id);
    NullQualified();
    ShareLinkResolves("null", id);
  }

  /** `null` holds no `.`, so the download page qualifies it. */
  lemma NullQualified()
    ensures Download.NormalizeUsername("null") == "null.id.blockstack"
  {
    assert "null"[0] != '.' && "null"[1] != '.' && "null"[2] != '.' && "null"[3] != '.';
    assert "null" + Download.NAMESPACE_SUFFIX == "null.id.blockstack";
  }

  /**
   * `render` (title and links): the title is the text after the last `/` of
   * `url` (all of `url` when it has none); the copied and the opened link are
   * both the share URL of the card's id.
   */
  function Render(props: Props, origin: string, username: Option<string>): (v: CardView)
    ensures '/' !in v.title
    ensures |v.title| <= |props.url| && props.url[|props.url| - |v.title|..] == v.title
    ensures |v.title| == |props.url| || props.url[|props.url| - |v.title| - 1] == '/'
    ensures '/' !in props.url ==> v.title == props.url
    ensures v.openHref == ShareUrl(origin, username, props.id)
    ensures v.copiedLink == v.openHref
  {
    var url := ShareUrl(origin, username, props.id);
    CardView(Strings.LastSegment(props.url, '/'), url, url)
  }
}

=== FILE: document_list.dfy ===
/**
 * The document grid: documents are shown newest first (`sortDocuments`,
 * which sorts the caller's array in place), and a card is marked as being
 * deleted exactly when its document is the very object being deleted.
 */
module DocumentList {
  import opened Wrappers
  import GaiaDocument

  /**
   * A document object as the UI holds it. `handle` stands for the object's
   * identity, which `===` compares: two objects with equal attributes are
   * still different objects.
   */
  datatype Instance = Instance(handle: nat, doc: GaiaDocument.Document)

  /** Every document in `xs` has a creation date. */
  predicate Dated(xs: seq<Instance>) {
    forall x :: x in xs ==> x.doc.createdAt.Some?
  }

  /** The creation date a document is sorted by (only read for dated documents). */
  function CreatedAt(x: Instance): int {
    x.doc.createdAt.GetOr(0)
  }

  /** Creation dates never increase along `xs`. */
  predicate NewestFirst(xs: seq<Instance>) {
    forall i, j :: 0 <= i < j < |xs| ==> CreatedAt(xs[i]) >= CreatedAt(xs[j])
  }

  /** A document at least as new as every document of a newest-first list can go in front of it. */
  lemma NewestFirstCons(h: Instance, rest: seq<Instance>)
    requires NewestFirst(rest)
    requires forall k :: 0 <= k < |rest| ==> CreatedAt(h) >= CreatedAt(rest[k])
    ensures NewestFirst([h] + rest)
  {
    var r := [h] + rest;
    forall i, j | 0 <= i < j < |r|
      ensures CreatedAt(r[i]) >= CreatedAt(r[j])
    {
      assert r[j] == rest[j - 1];
      if i > 0 {
        assert r[i] == rest[i - 1];
      }
    }
  }

  /** Puts `x` before the first document that is not newer than it. */
  function Insert(x: Instance, xs: seq<Instance>): (r: seq<Instance>)
    requires NewestFirst(xs)
    ensures |r| == |xs| + 1
    ensures multiset(r) == multiset(xs) + multiset{x}
    ensures NewestFirst(r)
    decreases |xs|
  {
    if xs == [] || CreatedAt(x) >= CreatedAt(xs[0]) then
      NewestFirstCons(x, xs);
      [x] + xs
    else
      var rest := Insert(x, xs[1..]);
      assert xs == [xs[0]] + xs[1..];
      assert forall k :: 0 <= k < |rest| ==> CreatedAt(xs[0]) >= CreatedAt(rest[k]) by {
        forall k | 0 <= k < |rest| ensures CreatedAt(xs[0]) >= CreatedAt(rest[k]) {
          assert rest[k] in multiset(rest);
          assert rest[k] in xs[1..] || rest[k] == x;
        }
      }
      NewestFirstCons(xs[0], rest);
      [xs[0]] + rest
  }

  /**
   * `sortDocuments`: the same documents, newest first. The comparator
   * `b.createdAt - a.createdAt` keeps documents with equal dates in their
   * original order.
   */
  function SortDocuments(xs: seq<Instance>): (r: seq<Instance>)
    requires Dated(xs)
    ensures |r| == |xs| && multiset(r) == multiset(xs)
    ensures Dated(r) && NewestFirst(r)
    decreases |xs|
  {
    if xs == [] then []
    else
      assert xs == [xs[0]] + xs[1..];
      var r := Insert(xs[0], SortDocuments(xs[1..]));
      assert forall y :: y in r ==> y in xs by {
        forall y | y in r ensures y in xs { assert y in multiset(r); }
      }
      r
  }

  /**
   * `sortDocuments` as the page runs it. With every document dated the
   * comparator is consistent and the result is newest first; with an undated
   * document the comparator returns `NaN` and the order is the engine's,
   * given as `engine`, which the language still guarantees to be a
   * permutation of the input.
   */
  function Sort(documents: seq<Instance>, engine: seq<Instance>): (r: seq<Instance>)
    requires multiset(engine) == multiset(documents)
    ensures |r| == |documents| && multiset(r) == multiset(documents)
    ensures Dated(documents) ==> NewestFirst(r)
    ensures !Dated(documents) ==> r == engine
  {
    if Dated(documents) then SortDocuments(documents)
    else
      assert |multiset(engine)| == |multiset(documents)|;
      engine
  }

  /** `sortDocuments` sorts the array it is given and returns that same array. */
  method SortInPlace(documents: array<Instance>, engine: seq<Instance>) returns (r: array<Instance>)
    requires multiset(engine) == multiset(documents[..])
    modifies documents
    ensures r == documents
    ensures documents[..] == Sort(old(documents[..]), engine)
  {
    var sorted := Sort(documents[..], engine);
    forall i | 0 <= i < documents.Length {
      documents[i] := sorted[i];
    }
    r := documents;
  }

  /** The properties a card receives from the list. */
  datatype CardProps = CardProps(doc: Instance, deleting: bool)

  /** `props.deleting === doc`: `x` is the very object being deleted, whatever its attributes now hold. */
  function IsDeleting(deleting: Option<Instance>, x: Instance): (r: bool)
    ensures r ==> deleting.Some?
    ensures deleting == Some(x) ==> r
  {
    deleting.Some? && deleting.value.handle == x.handle
  }

  /** Whether a card is flagged depends on the objects' identities alone, not on their attributes. */
  lemma IdentityNotAttributes(h: nat, k: nat, d: GaiaDocument.Document, e: GaiaDocument.Document)
    ensures IsDeleting(Some(Instance(h, d)), Instance(k, e)) <==> h == k
  {
  }

  /**
   * The list's cards: one per document, in `sortDocuments` order (newest
   * first when every document is dated), flagged when it is the object being
   * deleted. `engine` is the order the engine picks when a document is undated.
   */
  function Cards(documents: seq<Instance>, deleting: Option<Instance>, engine: seq<Instance>): (cards: seq<CardProps>)
    requires multiset(engine) == multiset(documents)
    ensures |cards| == |documents|
    ensures multiset(seq(|cards|, i requires 0 <= i < |cards| => cards[i].doc)) == multiset(documents)
    ensures forall i :: 0 <= i < |cards| ==> (cards[i].deleting <==> IsDeleting(deleting, cards[i].doc))
    ensures Dated(documents) ==> forall i, j :: 0 <= i < j < |cards| ==> CreatedAt(cards[i].doc) >= CreatedAt(cards[j].doc)
  {
    var sorted := Sort(documents, engine);
    var cards := seq(|sorted|, i requires 0 <= i < |sorted| => CardProps(sorted[i], IsDeleting(deleting, sorted[i])));
    assert seq(|cards|, i requires 0 <= i < |cards| => cards[i].doc) == sorted;
    assert forall i :: 0 <= i < |cards| ==> cards[i].doc in sorted;
    cards
  }

  /** No object appears twice in `xs`: their identities are pairwise different. */
  predicate Distinct(xs: seq<Instance>) {
    forall i, j :: 0 <= i < j < |xs| ==> xs[i].handle != xs[j].handle
  }

  /** Two positions holding the same object mean it occurs at least twice. */
  lemma {:induction false} RepeatCounts(xs: seq<Instance>, i: nat, j: nat)
    requires i < j < |xs| && xs[i] == xs[j]
    ensures multiset(xs)[xs[i]] >= 2
  {
    assert xs == xs[..i] + [xs[i]] + xs[i + 1..j] + [xs[j]] + xs[j + 1..];
  }

  /** In a list of distinct objects each one occurs once. */
  lemma {:induction false} DistinctCounts(xs: seq<Instance>, x: Instance)
    requires Distinct(xs) && x in xs
    ensures multiset(xs)[x] == 1
    decreases |xs|
  {
    assert xs == [xs[0]] + xs[1..];
    if xs[0] == x {
      assert forall k :: 0 <= k < |xs[1..]| ==> xs[1..][k].handle != x.handle;
      assert x !in xs[1..];
    } else {
      DistinctCounts(xs[1..], x);
    }
  }

  /** In a list of distinct objects, an object is found by its identity alone. */
  lemma SameHandle(xs: seq<Instance>, x: Instance, y: Instance)
    requires Distinct(xs) && x in xs && y in xs && x.handle == y.handle
    ensures x == y
  {
    var i :| 0 <= i < |xs| && xs[i] == x;
    var j :| 0 <= j < |xs| && xs[j] == y;
    assert i == j;
  }

  /**
   * When the list holds distinct objects and the object being deleted is
   * among them, exactly one card is flagged, and it shows that document.
   * This holds even if `deleting` carries older attributes of the same
   * object than the list does.
   */
  lemma {:induction false} OneCardDeleting(documents: seq<Instance>, engine: seq<Instance>, doc: Instance, deleting: Instance)
    requires multiset(engine) == multiset(documents)
    requires Distinct(documents) && doc in documents
    requires deleting.handle == doc.handle
    ensures var cards := Cards(documents, Some(deleting), engine);
      && (exists i :: 0 <= i < |cards| && cards[i].deleting && cards[i].doc == doc)
      && forall i, j :: 0 <= i < j < |cards| ==> !(cards[i].deleting && cards[j].deleting)
  {
    var cards := Cards(documents, Some(deleting), engine);
    var shown := seq(|cards|, i requires 0 <= i < |cards| => cards[i].doc);
    DistinctCounts(documents, doc);
    assert doc in multiset(shown);
    var k :| 0 <= k < |shown| && shown[k] == doc;
    assert cards[k].deleting;
    forall i | 0 <= i < |cards| && cards[i].deleting
      ensures shown[i] == doc
    {
      assert shown[i] in multiset(documents);
      SameHandle(documents, shown[i], doc);
    }
    forall i, j | 0 <= i < j < |cards| && cards[i].deleting && cards[j].deleting
      ensures false
    {
      RepeatCounts(shown, i, j);
    }
  }
}

=== FILE: download.dfy ===
/**
 * The download page's reading of a share path: `parseUrl` takes the
 * non-empty `/`-segments of the path, requires exactly three and reads the
 * owner from the second and the content id from the third; a bare owner name
 * (no `.`) is then qualified with the default namespace suffix.
 */
module Download {
  import opened Wrappers
  import Strings

  /** The suffix a bare username is qualified with. */
  const NAMESPACE_SUFFIX := ".id.blockstack"
  const INVALID_URL_PREFIX := "Invalid download URL (path="

  /** What `parseUrl` returns. */
  datatype UrlData = UrlData(hash: string, username: string)

  /** The owner and content id handed to the file downloader. */
  datatype FetchRequest = FetchRequest(username: string, hash: string)

  /**
   * `parseUrl`: succeeds exactly when the path has three non-empty segments,
   * and then reads the owner from the second and the content id from the
   * third; the first is not checked.
   */
  function ParseUrl(pathname: string): (r: Result<UrlData, string>)
    ensures r.Success? <==> |Strings.Segments(pathname, '/')| == 3
    ensures r.Success? ==>
      var segments := Strings.Segments(pathname, '/');
      && r.value == UrlData(segments[2], segments[1])
      && r.value.username != "" && '/' !in r.value.username
      && r.value.hash != "" && '/' !in r.value.hash
    ensures r.Failure? ==> r.error == INVALID_URL_PREFIX + pathname
  {
    var paths := Strings.Segments(pathname, '/');
    if |paths| != 3 then Failure(INVALID_URL_PREFIX + pathname)
    else Success(UrlData(paths[2], paths[1]))
  }

  /** What a path parses to, with the error text (which quotes the path) dropped. */
  function Parsed(pathname: string): Option<UrlData> {
    match ParseUrl(pathname)
    case Success(data) => Some(data)
    case Failure(_) => None
  }

  /** Leading, trailing and doubled slashes do not change what a path parses to. */
  lemma ParseIgnoresExtraSlashes(a: string, b: string)
    ensures Parsed("/" + a) == Parsed(a)
    ensures Parsed(a + "/") == Parsed(a)
    ensures Parsed(a + "//" + b) == Parsed(a + "/" + b)
  {
    Strings.SegmentsLeadingSeparator(a, '/');
    Strings.SegmentsTrailingSeparator(a, '/');
    assert a + "//" + b == a + ['/', '/'] + b;
    assert a + "/" + b == a + ['/'] + b;
    Strings.SegmentsDoubledSeparator(a, b, '/');
  }

  /** `/<a>/<b>/<c>` is the join of `["", a, b, c]` on `/`. */
  lemma JoinOfThree(a: string, b: string, c: string)
    ensures Strings.Join(["", a, b, c], '/') == "/" + a + "/" + b + "/" + c
  {
    var parts := ["", a, b, c];
    assert parts[1..][1..][1..] == [c];
    assert parts[1..][1..] == [b, c];
    assert parts[1..] == [a, b, c];
    assert Strings.Join([b, c], '/') == b + "/" + c;
    assert Strings.Join([a, b, c], '/') == a + "/" + (b + "/" + c);
  }

  /** Dropping the empty leading piece of `/<a>/<b>/<c>` keeps the three others. */
  lemma NonEmptyOfThree(a: string, b: string, c: string)
    requires a != "" && b != "" && c != ""
    ensures Strings.NonEmpty(["", a, b, c]) == [a, b, c]
  {
    assert Strings.NonEmpty([]) == [];
    assert [c] == [c] + [];
    Strings.NonEmptyCons(c, []);
    assert Strings.NonEmpty([c]) == [c];
    assert [b, c] == [b] + [c];
    Strings.NonEmptyCons(b, [c]);
    assert Strings.NonEmpty([b, c]) == [b, c];
    assert [a, b, c] == [a] + [b, c];
    Strings.NonEmptyCons(a, [b, c]);
    assert Strings.NonEmpty([a, b, c]) == [a, b, c];
    assert ["", a, b, c] == [""] + [a, b, c];
    Strings.NonEmptyCons("", [a, b, c]);
  }

  /** The segments of `/<a>/<b>/<c>` for non-empty, slash-free `a`, `b`, `c`. */
  lemma SegmentsOfThree(a: string, b: string, c: string)
    requires a != "" && '/' !in a
    requires b != "" && '/' !in b
    requires c != "" && '/' !in c
    ensures Strings.Segments("/" + a + "/" + b + "/" + c, '/') == [a, b, c]
  {
    var parts := ["", a, b, c];
    assert forall i :: 0 <= i < |parts| ==> '/' !in parts[i];
    Strings.SegmentsOfJoin(parts, '/');
    NonEmptyOfThree(a, b, c);
    JoinOfThree(a, b, c);
  }

  /** `/<any>/<username>/<hash>` parses to that username and hash, whatever the first segment is. */
  lemma ParseThreeSegments(first: string, username: string, hash: string)
    requires first != "" && '/' !in first
    requires username != "" && '/' !in username
    requires hash != "" && '/' !in hash
    ensures ParseUrl("/" + first + "/" + username + "/" + hash) == Success(UrlData(hash, username))
  {
    SegmentsOfThree(first, username, hash);
  }

  /** The username suffix rule: a name without a `.` gets the default namespace suffix. */
  function NormalizeUsername(username: string): (r: string)
    ensures '.' in r
    ensures '.' in username ==> r == username
    ensures '.' !in username ==> r == username + NAMESPACE_SUFFIX
  {
    if '.' in username then username else username + NAMESPACE_SUFFIX
  }

  /** Normalizing a normalized name changes nothing. */
  lemma NormalizeIdempotent(username: string)
    ensures NormalizeUsername(NormalizeUsername(username)) == NormalizeUsername(username)
  {
  }

  /**
   * `componentDidMount` up to the download: parse the path (an invalid one
   * throws, so no download is attempted), then normalize the owner.
   */
  function Mount(pathname: string): (r: Result<FetchRequest, string>)
    ensures r.Failure? <==> ParseUrl(pathname).Failure?
    ensures r.Success? ==>
      && r.value.hash == ParseUrl(pathname).value.hash
      && r.value.username == NormalizeUsername(ParseUrl(pathname).value.username)
  {
    match ParseUrl(pathname)
    case Failure(e) => Failure(e)
    case Success(data) => Success(FetchRequest(NormalizeUsername(data.username), data.hash))
  }
}

=== FILE: gaia_document.dfy ===
/**
 * The document record: a versioned record with the `WithFile` capability.
 * Its stored form uses the version-1 field names (`url`, `size`,
 * `num_parts`, `created_at`); loading maps them onto the current attributes
 * (`filePath`, `fileSize`, `numParts`, `createdAt`), and the JSON form of a
 * document is written back in the version-1 names, tagged `version: 1`, with
 * `localId` equal to `id` and a null `content_type`.
 */
module GaiaDocument {
  import opened Wrappers
  import opened Js
  import WithFile

  /** A date, as the milliseconds since the epoch that `new Date(...)` holds. */
  type Timestamp = int

  /** The version every document is written with. */
  const CURRENT_VERSION := 1
  const UNSUPPORTED_VERSION := "Unsupported document version"

  /** A stored or indexed payload in the version-1 names; a missing key is `None`/`Undefined`. */
  datatype V1Payload = V1Payload(
    id: Option<string>,
    version: Option<int>,
    url: Option<string>,
    size: Number,
    num_parts: Number,
    created_at: Option<Timestamp>,
    uploaded: Option<bool>)

  /** Attributes under their current names, as given to `new GaiaDocument(...)`. */
  datatype Attributes = Attributes(
    id: Option<string>,
    filePath: Option<string>,
    fileSize: Number,
    numParts: Number,
    createdAt: Option<Timestamp>,
    uploaded: Option<bool>,
    fileName: Option<string>)

  /** A document in memory: record attributes plus the file state. */
  datatype Document = Document(
    id: Option<string>,
    version: int,
    createdAt: Option<Timestamp>,
    uploaded: Option<bool>,
    file: WithFile.FileRecord)

  /** The JSON object a document serializes to. */
  datatype Json = Json(
    id: Option<string>,
    content_type: Option<string>,
    localId: Option<string>,
    version: int,
    created_at: Option<Timestamp>,
    num_parts: Number,
    size: Number,
    url: Option<string>,
    uploaded: Option<bool>)

  /** The version a payload declares; a payload without one is version 1. */
  function PayloadVersion(p: V1Payload): int {
    p.version.GetOr(1)
  }

  /**
   * `new GaiaDocument(attributes)`: the given attributes under their current
   * names, the current version, the given file name cached, and otherwise a
   * file state with no owner, callbacks, uploader or downloader.
   */
  function New(a: Attributes): (d: Document)
    ensures d.version == CURRENT_VERSION && d.id == a.id && d.createdAt == a.createdAt && d.uploaded == a.uploaded
    ensures d.file.filePath == a.filePath && d.file.fileSize == a.fileSize && d.file.numParts == a.numParts
    ensures d.file.cachedName == a.fileName && Unattached(d.file)
  {
    Document(a.id, CURRENT_VERSION, a.createdAt, a.uploaded, WithFile.New(a.filePath, a.fileSize, a.numParts, a.fileName))
  }

  /** A file state with no owner name, no callbacks, no uploader and no downloader. */
  predicate Unattached(f: WithFile.FileRecord) {
    && f.username == None
    && f.uploadCallbacks == [] && f.downloadCallbacks == []
    && f.uploader == None && f.downloader == None
  }

  /** A file state as a constructor without a file name leaves it: nothing cached and nothing attached. */
  predicate FreshFile(f: WithFile.FileRecord) {
    f.cachedName == None && Unattached(f)
  }

  /**
   * `d` is what loading `p` gives: version 1, each version-1 field of `p`
   * under its current name, and a fresh file state.
   */
  predicate LoadedFrom(d: Document, p: V1Payload) {
    && FreshFile(d.file)
    && d.version == 1
    && d.id == p.id
    && d.file.filePath == p.url
    && d.file.fileSize == p.size
    && d.file.numParts == p.num_parts
    && d.createdAt == p.created_at
    && d.uploaded == p.uploaded
  }

  /**
   * Loading a version-1 payload: each version-1 field becomes the current
   * attribute with the same value, and the document is version 1.
   */
  function Load(p: V1Payload): (r: Result<Document, string>)
    ensures r.Success? <==> PayloadVersion(p) == 1
    ensures r.Success? ==> LoadedFrom(r.value, p)
    ensures r.Failure? ==> r.error == UNSUPPORTED_VERSION
  {
    if PayloadVersion(p) != 1 then Failure(UNSUPPORTED_VERSION)
    else Success(Document(p.id, 1, p.created_at, p.uploaded, WithFile.New(p.url, p.size, p.num_parts, None)))
  }

  /**
   * `GaiaDocument.get`: the payload the session read (or the error it
   * raised), then loaded: a read error propagates, and a read payload gives
   * the document loaded from it.
   */
  function Get(fetched: Result<V1Payload, string>): (r: Result<Document, string>)
    ensures fetched.Failure? ==> r == Failure(fetched.error)
    ensures fetched.Success? ==> (r.Success? <==> PayloadVersion(fetched.value) == 1)
    ensures r.Success? ==> fetched.Success? && LoadedFrom(r.value, fetched.value)
  {
    match fetched
    case Failure(e) => Failure(e)
    case Success(p) => Load(p)
  }

  /** `GaiaDocument.fromGaiaIndex`: a payload listed in the index gives the document loaded from it. */
  function FromGaiaIndex(p: V1Payload): (r: Result<Document, string>)
    ensures r.Success? <==> PayloadVersion(p) == 1
    ensures r.Success? ==> LoadedFrom(r.value, p)
  {
    Load(p)
  }

  /** The JSON form: version-1 names, `version: 1`, `localId` copied from `id`, `content_type: null`. */
  function ToJson(d: Document): (j: Json)
    ensures j.version == CURRENT_VERSION && j.localId == j.id && j.content_type == None
    ensures j.id == d.id && j.created_at == d.createdAt && j.uploaded == d.uploaded
    ensures j.url == d.file.filePath && j.size == d.file.fileSize && j.num_parts == d.file.numParts
  {
    Json(d.id, None, d.id, CURRENT_VERSION, d.createdAt, d.file.numParts, d.file.fileSize, d.file.filePath, d.uploaded)
  }

  /** The current-name attributes written in the version-1 names. */
  function AsV1(a: Attributes): V1Payload {
    V1Payload(a.id, None, a.filePath, a.fileSize, a.numParts, a.createdAt, a.uploaded)
  }

  /** The JSON form read back as a payload. */
  function PayloadOf(j: Json): V1Payload {
    V1Payload(j.id, Some(j.version), j.url, j.size, j.num_parts, j.created_at, j.uploaded)
  }

  /**
   * A document built from current names and one loaded from the same values
   * under version-1 names serialize to identical JSON.
   */
  lemma NewAndLoadedAgree(a: Attributes)
    ensures Load(AsV1(a)).Success?
    ensures ToJson(New(a)) == ToJson(Load(AsV1(a)).value)
  {
  }

  /** Loading a version-1 payload and serializing it reproduces every field it had. */
  lemma V1RoundTrip(p: V1Payload)
    requires PayloadVersion(p) == 1
    ensures Load(p).Success?
    ensures PayloadOf(ToJson(Load(p).value)) == p.(version := Some(1))
  {
  }

  /** Serializing a loaded document and loading the JSON again gives the same document. */
  lemma JsonReloads(p: V1Payload)
    requires Load(p).Success?
    ensures Load(PayloadOf(ToJson(Load(p).value))) == Load(p)
  {
  }

  /** The version-1 payload of the record tests. */
  const ExamplePayload := V1Payload(Some("123"), None, Some("abcdef/name.pdf"), Num(500), Num(2), Some(1563274059865), Some(true))

  /** The attribute values the record tests expect of the loaded example, including the derived `fileName`. */
  predicate IsExampleDocument(d: Document) {
    && d.file.filePath == Some("abcdef/name.pdf")
    && WithFile.FileName(d.file).outcome == Success(Some("name.pdf"))
    && d.file.fileSize == Num(500)
    && d.createdAt == Some(1563274059865)
    && d.file.numParts == Num(2)
    && d.uploaded == Some(true)
    && d.version == 1
  }

  /** A document loaded from the example payload has the values the tests expect. */
  lemma {:induction false} LoadedExample(d: Document)
    requires LoadedFrom(d, ExamplePayload)
    ensures IsExampleDocument(d)
  {
    assert "abcdef" + "/" + "name.pdf" == "abcdef/name.pdf";
    WithFile.FileNameOfPath(d.file, "abcdef", "name.pdf");
  }

  /** Reading the example from storage (`get`) gives the values the tests expect. */
  lemma GetExample()
    ensures Get(Success(ExamplePayload)).Success?
    ensures IsExampleDocument(Get(Success(ExamplePayload)).value)
  {
    LoadedExample(Load(ExamplePayload).value);
  }

  /** Reading the example from the index (`fromGaiaIndex`) gives the values the tests expect. */
  lemma IndexExample()
    ensures FromGaiaIndex(ExamplePayload).Success?
    ensures IsExampleDocument(FromGaiaIndex(ExamplePayload).value)
  {
    LoadedExample(Load(ExamplePayload).value);
  }

  /** The example, loaded or built from current names, serializes to the JSON the tests expect. */
  lemma SerializeExample()
    ensures var expected := Json(Some("123"), None, Some("123"), 1, Some(1563274059865), Num(2), Num(500), Some("abcdef/name.pdf"), Some(true));
      && ToJson(Get(Success(ExamplePayload)).value) == expected
      && ToJson(New(Attributes(Some("123"), Some("abcdef/name.pdf"), Num(500), Num(2), Some(1563274059865), Some(true), None))) == expected
  {
  }

  /**
   * The save example: a new document named `name.pdf`, without a path, is
   * saved under a path of 24 letters or digits, a `/`, then `name.pdf`.
   */
  lemma SaveExample(hash: string, limit: int, upload: Result<Number, string>)
    requires |hash| == WithFile.HASH_LENGTH && forall i :: 0 <= i < |hash| ==> WithFile.IsAlphanumeric(hash[i])
    ensures var doc := New(Attributes(None, None, Num(500), Null, None, None, Some("name.pdf")));
      var saved := WithFile.BeforeSave(doc.file, hash, limit, upload).record;
      saved.filePath.Some? && WithFile.IsGeneratedPath(saved.filePath.value, "name.pdf")
  {
  }
}

=== FILE: js.dfy ===
/**
 * The pieces of JavaScript value semantics the modelled code relies on:
 * truthiness (`x || y`, `if (x)`), the relational operators on numbers that
 * may be `null` or `undefined`, and template-literal interpolation.
 */
module Js {
  import opened Wrappers

  /**
   * A value held by a numeric attribute. File sizes and part counts are
   * integral, so a present number is an `int`.
   */
  datatype Number = Undefined | Null | NaN | Num(n: int)

  /** `!!x` for a number: `0`, `NaN`, `null` and `undefined` are falsy. */
  predicate NumberTruthy(x: Number) {
    x.Num? && x.n != 0
  }

  /** `!!s` for a string attribute: `null`, `undefined` and `""` are falsy. */
  predicate StringTruthy(s: Option<string>) {
    s.Some? && s.value != ""
  }

  /**
   * ToNumber as the relational operators apply it: `null` becomes 0,
   * `undefined` becomes NaN. `None` stands for NaN.
   */
  function ToNumeric(x: Number): (r: Option<int>)
    ensures r.None? <==> x.Undefined? || x.NaN?
  {
    match x
    case Undefined => None
    case NaN => None
    case Null => Some(0)
    case Num(n) => Some(n)
  }

  /** `x <= y`: `null` compares as 0, and the comparison is false whenever `x` converts to NaN. */
  function LessOrEqual(x: Number, y: int): (r: bool)
    ensures x.Num? ==> (r <==> x.n <= y)
    ensures x.Null? ==> (r <==> 0 <= y)
    ensures x.Undefined? || x.NaN? ==> !r
  {
    ToNumeric(x).Some? && ToNumeric(x).value <= y
  }

  /** `x > y`: `null` compares as 0, and the comparison is false whenever `x` converts to NaN. */
  function Greater(x: Number, y: int): (r: bool)
    ensures x.Num? ==> (r <==> x.n > y)
    ensures x.Null? ==> (r <==> 0 > y)
    ensures x.Undefined? || x.NaN? ==> !r
  {
    ToNumeric(x).Some? && ToNumeric(x).value > y
  }

  /**
   * For a value that converts to a number exactly one of `x <= y` and
   * `x > y` holds; for `undefined` and `NaN` neither does.
   */
  lemma Trichotomy(x: Number, y: int)
    ensures LessOrEqual(x, y) ==> !Greater(x, y)
    ensures ToNumeric(x).Some? <==> LessOrEqual(x, y) || Greater(x, y)
  {
  }

  /** `${s}` for a string attribute that may be `null`. */
  function Show(s: Option<string>): string {
    match s
    case Some(v) => v
    case None => "null"
  }

  predicate IsDigit(c: char) {
    '0' <= c <= '9'
  }

  predicate AllDigits(s: string) {
    forall i :: 0 <= i < |s| ==> IsDigit(s[i])
  }

  /** The ASCII digit for `d`. */
  function Digit(d: nat): (c: char)
    requires d < 10
    ensures IsDigit(c)
  {
    "0123456789"[d]
  }

  function DigitValue(c: char): (d: nat)
    requires IsDigit(c)
    ensures d < 10
  {
    c as int - '0' as int
  }

  /** `${n}` for a non-negative integer: its decimal digits, no leading zero. */
  function DecimalText(n: nat): (s: string)
    ensures |s| >= 1 && AllDigits(s)
    ensures |s| > 1 ==> s[0] != '0'
    decreases n
  {
    if n < 10 then [Digit(n)] else DecimalText(n / 10) + [Digit(n % 10)]
  }

  /** The value of a string of decimal digits (the empty string reads as 0). */
  function DecimalValue(s: string): nat
    requires AllDigits(s)
    decreases |s|
  {
    if s == [] then 0 else 10 * DecimalValue(s[..|s| - 1]) + DigitValue(s[|s| - 1])
  }

  /** Reading back the decimal text of `n` gives `n`: the text names the number. */
  lemma {:induction false} DecimalRoundTrip(n: nat)
    ensures DecimalValue(DecimalText(n)) == n
    decreases n
  {
    if n >= 10 {
      var s := DecimalText(n);
      assert s[..|s| - 1] == DecimalText(n / 10);
      DecimalRoundTrip(n / 10);
      assert DigitValue(Digit(n % 10)) == n % 10 by {
        assert "0123456789"[n % 10] as int == '0' as int + n % 10;
      }
    } else {
      assert DigitValue(Digit(n)) == n by {
        assert "0123456789"[n] as int == '0' as int + n;
      }
    }
  }
}

=== FILE: strings.dfy ===
/**
 * The string operations the components use: `s.split(sep)`, the last element
 * of a split (`.pop()`), a split with the empty pieces dropped
 * (`.filter(s => s)`), and `s.replace(pattern, replacement)` with a string
 * pattern, which replaces only the first occurrence.
 */
module Strings {
  import opened Wrappers

  /** `s.split(sep)`: the pieces between separators; the empty string splits into one empty piece. */
  function Split(s: string, sep: char): (parts: seq<string>)
    ensures |parts| >= 1
    decreases |s|
  {
    if s == [] then [""] else Prepend(s[0], Split(s[1..], sep), sep)
  }

  /** The pieces of `[c] + t` from the pieces of `t`: a separator starts a new empty piece, any other character extends the first. */
  function Prepend(c: char, parts: seq<string>, sep: char): (r: seq<string>)
    requires |parts| >= 1
    ensures |r| >= 1
  {
    if c == sep then [""] + parts else [[c] + parts[0]] + parts[1..]
  }

  lemma PrependConcat(c: char, ra: seq<string>, rb: seq<string>, sep: char)
    requires |ra| >= 1
    ensures Prepend(c, ra + rb, sep) == Prepend(c, ra, sep) + rb
  {
    if c != sep {
      assert (ra + rb)[1..] == ra[1..] + rb;
    }
  }

  /** No piece of a split holds the separator. */
  lemma {:induction false} SplitPiecesFree(s: string, sep: char)
    ensures forall i :: 0 <= i < |Split(s, sep)| ==> sep !in Split(s, sep)[i]
    decreases |s|
  {
    if s != [] {
      SplitPiecesFree(s[1..], sep);
      SplitCons(s[0], s[1..], sep);
      assert [s[0]] + s[1..] == s;
    }
  }

  /** `parts.join(sep)`. */
  function Join(parts: seq<string>, sep: char): string
    requires |parts| >= 1
    decreases |parts|
  {
    if |parts| == 1 then parts[0] else parts[0] + [sep] + Join(parts[1..], sep)
  }

  /** Joining the pieces of a split gives back the original string. */
  lemma {:induction false} JoinSplit(s: string, sep: char)
    ensures Join(Split(s, sep), sep) == s
    decreases |s|
  {
    if s != [] {
      var rest := Split(s[1..], sep);
      JoinSplit(s[1..], sep);
      if s[0] == sep {
        assert ([""] + rest)[1..] == rest;
      } else if |rest| > 1 {
        var parts := [[s[0]] + rest[0]] + rest[1..];
        assert parts[1..] == rest[1..];
        assert Join(rest, sep) == rest[0] + [sep] + Join(rest[1..], sep);
      }
    }
  }

  /** A string with no separator splits into itself alone. */
  lemma {:induction false} SplitNoSeparator(s: string, sep: char)
    requires sep !in s
    ensures Split(s, sep) == [s]
    decreases |s|
  {
    if s != [] {
      SplitNoSeparator(s[1..], sep);
      assert [s[0]] + s[1..] == s;
    }
  }

  /** One step of `Split`. */
  lemma SplitCons(c: char, t: string, sep: char)
    ensures Split([c] + t, sep) == Prepend(c, Split(t, sep), sep)
  {
    assert ([c] + t)[1..] == t;
  }

  /** Splitting at one separator splits the two sides independently. */
  lemma {:induction false} SplitAround(a: string, b: string, sep: char)
    ensures Split(a + [sep] + b, sep) == Split(a, sep) + Split(b, sep)
    decreases |a|
  {
    if a == [] {
      assert a + [sep] + b == [sep] + b;
      SplitCons(sep, b, sep);
    } else {
      var c, t := a[0], a[1..];
      var tail := t + [sep] + b;
      assert a + [sep] + b == [c] + tail;
      assert a == [c] + t;
      SplitAround(t, b, sep);
      SplitCons(c, tail, sep);
      SplitCons(c, t, sep);
      PrependConcat(c, Split(t, sep), Split(b, sep), sep);
    }
  }

  /** Splitting a join of separator-free pieces gives back the pieces. */
  lemma {:induction false} SplitJoin(parts: seq<string>, sep: char)
    requires |parts| >= 1
    requires forall i :: 0 <= i < |parts| ==> sep !in parts[i]
    ensures Split(Join(parts, sep), sep) == parts
    decreases |parts|
  {
    SplitNoSeparator(parts[0], sep);
    if |parts| > 1 {
      SplitJoin(parts[1..], sep);
      SplitAround(parts[0], Join(parts[1..], sep), sep);
      assert [parts[0]] + parts[1..] == parts;
    }
  }

  /** The position of the last separator in `s`. */
  ghost function LastSeparator(s: string, sep: char): (k: nat)
    requires sep in s
    ensures k < |s| && s[k] == sep && sep !in s[k + 1..]
    decreases |s|
  {
    if s[|s| - 1] == sep then |s| - 1
    else
      var k := LastSeparator(s[..|s| - 1], sep);
      assert s[k + 1..] == s[..|s| - 1][k + 1..] + [s[|s| - 1]];
      k
  }

  /** The last piece of a split is the text after the last separator (all of `s` when there is none). */
  lemma LastPiece(s: string, sep: char)
    ensures sep in s ==> Split(s, sep)[|Split(s, sep)| - 1] == s[LastSeparator(s, sep) + 1..]
    ensures sep !in s ==> Split(s, sep)[|Split(s, sep)| - 1] == s
  {
    if sep in s {
      var k := LastSeparator(s, sep);
      var a, b := s[..k], s[k + 1..];
      assert s == a + [sep] + b;
      SplitAround(a, b, sep);
      SplitNoSeparator(b, sep);
      assert Split(s, sep) == Split(a, sep) + [b];
    } else {
      SplitNoSeparator(s, sep);
    }
  }

  /**
   * `s.split(sep).pop()`: the text after the last separator. It holds no
   * separator, ends `s`, and is either all of `s` or preceded by a separator.
   */
  function LastSegment(s: string, sep: char): (r: string)
    ensures sep !in r
    ensures |r| <= |s| && s[|s| - |r|..] == r
    ensures |r| == |s| || s[|s| - |r| - 1] == sep
    ensures sep !in s ==> r == s
  {
    var parts := Split(s, sep);
    LastPiece(s, sep);
    parts[|parts| - 1]
  }

  /** The last segment of `a + sep + b` is `b` when `b` holds no separator. */
  lemma LastSegmentAfter(a: string, b: string, sep: char)
    requires sep !in b
    ensures LastSegment(a + [sep] + b, sep) == b
  {
    SplitAround(a, b, sep);
    SplitNoSeparator(b, sep);
    assert Split(a + [sep] + b, sep) == Split(a, sep) + [b];
  }

  /** The pieces that are not empty (`.filter(s => s)`), in order. */
  function NonEmpty(parts: seq<string>): (r: seq<string>)
    ensures |r| <= |parts|
    ensures forall i :: 0 <= i < |r| ==> r[i] != "" && r[i] in parts
    decreases |parts|
  {
    if parts == [] then []
    else if parts[0] == "" then NonEmpty(parts[1..])
    else [parts[0]] + NonEmpty(parts[1..])
  }

  /** One step of `NonEmpty`. */
  lemma NonEmptyCons(p: string, rest: seq<string>)
    ensures NonEmpty([p] + rest) == if p == "" then NonEmpty(rest) else [p] + NonEmpty(rest)
  {
    assert ([p] + rest)[1..] == rest;
  }

  lemma {:induction false} NonEmptyConcat(a: seq<string>, b: seq<string>)
    ensures NonEmpty(a + b) == NonEmpty(a) + NonEmpty(b)
    decreases |a|
  {
    if a == [] {
      assert a + b == b;
    } else {
      assert a + b == [a[0]] + (a[1..] + b);
      assert a == [a[0]] + a[1..];
      NonEmptyConcat(a[1..], b);
      NonEmptyCons(a[0], a[1..] + b);
      NonEmptyCons(a[0], a[1..]);
    }
  }

  /** `s.split(sep).filter(s => s)`: the non-empty segments of a path. */
  function Segments(s: string, sep: char): (r: seq<string>)
    ensures forall i :: 0 <= i < |r| ==> r[i] != "" && sep !in r[i]
  {
    SplitPiecesFree(s, sep);
    NonEmpty(Split(s, sep))
  }

  /** A leading separator does not change the segments. */
  lemma SegmentsLeadingSeparator(s: string, sep: char)
    ensures Segments([sep] + s, sep) == Segments(s, sep)
  {
    assert ([sep] + s)[1..] == s;
  }

  /** A trailing separator does not change the segments. */
  lemma SegmentsTrailingSeparator(s: string, sep: char)
    ensures Segments(s + [sep], sep) == Segments(s, sep)
  {
    SplitAround(s, "", sep);
    assert s + [sep] + "" == s + [sep];
    NonEmptyConcat(Split(s, sep), [""]);
  }

  /** A doubled separator splits like a single one. */
  lemma SegmentsDoubledSeparator(a: string, b: string, sep: char)
    ensures Segments(a + [sep, sep] + b, sep) == Segments(a + [sep] + b, sep)
  {
    assert a + [sep, sep] + b == a + [sep] + ([sep] + b);
    SplitAround(a, [sep] + b, sep);
    SplitAround(a, b, sep);
    SplitAround("", b, sep);
    assert "" + [sep] + b == [sep] + b;
    NonEmptyConcat(Split(a, sep), Split([sep] + b, sep));
    NonEmptyConcat(Split(a, sep), Split(b, sep));
    NonEmptyConcat([""], Split(b, sep));
  }

  /** The segments of a join of non-empty, separator-free pieces are those pieces. */
  lemma SegmentsOfJoin(parts: seq<string>, sep: char)
    requires |parts| >= 1
    requires forall i :: 0 <= i < |parts| ==> sep !in parts[i]
    ensures Segments(Join(parts, sep), sep) == NonEmpty(parts)
  {
    SplitJoin(parts, sep);
  }

  /** `pat` occurs in `s` starting at position `k`. */
  predicate OccursAt(s: string, pat: string, k: int) {
    0 <= k && k + |pat| <= |s| && s[k..k + |pat|] == pat
  }

  lemma OccursShift(s: string, pat: string, j: int)
    requires s != [] && 0 <= j
    ensures OccursAt(s, pat, j + 1) <==> OccursAt(s[1..], pat, j)
  {
    if j + 1 + |pat| <= |s| {
      assert s[j + 1..j + 1 + |pat|] == s[1..][j..j + |pat|];
    }
  }

  /** `pat` occurs at `k` and nowhere before it. */
  predicate FirstOccurrence(s: string, pat: string, k: int) {
    OccursAt(s, pat, k) && forall j :: 0 <= j < k ==> !OccursAt(s, pat, j)
  }

  /** `pat` occurs nowhere in `s`. */
  ghost predicate Absent(s: string, pat: string) {
    forall j :: !OccursAt(s, pat, j)
  }

  /** `s.indexOf(pat)`: the first position where `pat` occurs, if any. */
  function FirstIndex(s: string, pat: string): (r: Option<nat>)
    ensures r.Some? ==> FirstOccurrence(s, pat, r.value)
    ensures r.None? ==> Absent(s, pat)
    decreases |s|
  {
    if |pat| <= |s| && s[..|pat|] == pat then Some(0)
    else if s == [] then None
    else
      var rest := FirstIndex(s[1..], pat);
      assert forall j :: 0 <= j ==> (OccursAt(s, pat, j + 1) <==> OccursAt(s[1..], pat, j)) by {
        forall j | 0 <= j { OccursShift(s, pat, j); }
      }
      assert forall j :: OccursAt(s, pat, j) ==> j == 0 || OccursAt(s[1..], pat, j - 1);
      match rest
      case None => None
      case Some(k) => Some(k + 1)
  }

  /**
   * `s.replace(pat, repl)` with a string pattern: only the first occurrence
   * is replaced, and a string without `pat` is returned unchanged.
   */
  function ReplaceFirst(s: string, pat: string, repl: string): (r: string)
    ensures Absent(s, pat) ==> r == s
    ensures forall k :: FirstOccurrence(s, pat, k) ==> r == s[..k] + repl + s[k + |pat|..]
  {
    match FirstIndex(s, pat)
    case None => s
    case Some(k) => s[..k] + repl + s[k + |pat|..]
  }
}

=== FILE: with_file.dfy ===
/**
 * The `WithFile` capability layered onto a record: the file attributes
 * (`filePath`, `fileSize`, `numParts`), the lazily derived and cached
 * `fileName`, uploader choice by size, the save hook that names the remote
 * object, the names of part objects, serialization of the file attributes,
 * progress-callback registration and the choice of download path.
 *
 * The uploaders, the downloader, the random generator and the session are
 * collaborators whose code is not part of this model: an uploader or
 * downloader is represented by the callbacks attached to it, and what they
 * return (the uploaded part count, the reassembled bytes, the file URL) is
 * passed in as an argument.
 */
module WithFile {
  import opened Wrappers
  import opened Js
  import Strings

  /** The identity of a progress-callback function. */
  type Callback = nat

  /** What was passed to `onUploadProgress`/`onDownloadProgress`. */
  datatype Argument = Function(callback: Callback) | NotFunction

  /** `DocumentUploader` or `PartitionedDocumentUploader`. */
  datatype UploaderKind = Single | Partitioned

  /** An uploader together with the progress callbacks attached to it, in order. */
  datatype Uploader = Uploader(kind: UploaderKind, observers: seq<Callback>)

  /** A `PartitionedDocumentDownloader` with the progress callbacks attached to it. */
  datatype Downloader = Downloader(observers: seq<Callback>)

  /**
   * The state a `WithFile` record carries: the three file attributes, the
   * cached `_fileName`, the owner name used for public reads (`_username`),
   * the registered callbacks and the current uploader and downloader.
   */
  datatype FileRecord = FileRecord(
    filePath: Option<string>,
    fileSize: Number,
    numParts: Number,
    cachedName: Option<string>,
    username: Option<string>,
    uploadCallbacks: seq<Callback>,
    downloadCallbacks: seq<Callback>,
    uploader: Option<Uploader>,
    downloader: Option<Downloader>)

  /** The effect of a call on a record: the record afterwards, and what the call returned or threw. */
  datatype Call<T> = Call(record: FileRecord, outcome: Result<T, string>)

  const MISSING_FILE_SIZE := "Cant get uploader - missing 'fileSize'"
  const NOT_A_FUNCTION := "Progress callback must be of type 'function'"
  const INVALID_ARRAY_LENGTH := "Invalid array length"
  /** Length of the random prefix of a generated `filePath`. */
  const HASH_LENGTH := 24
  /** The largest length `new Array(n)` accepts. */
  const MAX_ARRAY_LENGTH := 0xFFFF_FFFF

  /** A freshly constructed record: no callbacks, no uploader or downloader. */
  function New(filePath: Option<string>, fileSize: Number, numParts: Number, fileName: Option<string>): (rec: FileRecord)
    ensures rec.filePath == filePath && rec.fileSize == fileSize && rec.numParts == numParts
    ensures rec.cachedName == fileName && rec.username == None
    ensures rec.uploadCallbacks == [] && rec.downloadCallbacks == []
    ensures rec.uploader == None && rec.downloader == None
    ensures Attached(rec)
  {
    FileRecord(filePath, fileSize, numParts, fileName, None, [], [], None, None)
  }

  /**
   * Every registered callback is attached, in registration order, to the
   * current uploader and to the current downloader.
   */
  predicate Attached(rec: FileRecord) {
    && (rec.uploader.Some? ==> rec.uploader.value.observers == rec.uploadCallbacks)
    && (rec.downloader.Some? ==> rec.downloader.value.observers == rec.downloadCallbacks)
  }

  /**
   * The `fileName` getter: a truthy cached name wins; with no `filePath` the
   * name is `null`; otherwise it is the last `/`-segment of `filePath`, which
   * is cached.
   */
  function FileName(rec: FileRecord): (c: Call<Option<string>>)
    ensures c.outcome.Success?
    ensures StringTruthy(rec.cachedName) ==> c == Call(rec, Success(rec.cachedName))
    ensures !StringTruthy(rec.cachedName) && !StringTruthy(rec.filePath) ==> c == Call(rec, Success(None))
    ensures !StringTruthy(rec.cachedName) && StringTruthy(rec.filePath) ==>
      var name := c.outcome.value;
      && name.Some? && '/' !in name.value
      && |name.value| <= |rec.filePath.value|
      && rec.filePath.value[|rec.filePath.value| - |name.value|..] == name.value
      && (|name.value| == |rec.filePath.value| || rec.filePath.value[|rec.filePath.value| - |name.value| - 1] == '/')
      && c.record == rec.(cachedName := name)
  {
    if StringTruthy(rec.cachedName) then Call(rec, Success(rec.cachedName))
    else if !StringTruthy(rec.filePath) then Call(rec, Success(None))
    else
      var name := Some(Strings.LastSegment(rec.filePath.value, '/'));
      Call(rec.(cachedName := name), Success(name))
  }

  /** The `fileName` setter. */
  function SetFileName(rec: FileRecord, value: Option<string>): (r: FileRecord)
    ensures r.cachedName == value
    ensures r.(cachedName := rec.cachedName) == rec
  {
    rec.(cachedName := value)
  }

  /** Once derived, the name is cached: changing `filePath` afterwards does not change it. */
  lemma FileNameCached(rec: FileRecord, newPath: Option<string>)
    requires StringTruthy(rec.filePath)
    requires Strings.LastSegment(rec.filePath.value, '/') != ""
    ensures var first := FileName(rec);
      FileName(first.record.(filePath := newPath)).outcome == first.outcome
  {
  }

  /** A path `prefix/name` names the file `name`, when `name` is non-empty and holds no `/`. */
  lemma FileNameOfPath(rec: FileRecord, prefix: string, name: string)
    requires !StringTruthy(rec.cachedName)
    requires '/' !in name && name != ""
    requires rec.filePath == Some(prefix + "/" + name)
    ensures FileName(rec).outcome == Success(Some(name))
  {
    Strings.LastSegmentAfter(prefix, name, '/');
  }

  /**
   * `getUploader`: a size `<= limit` (including `null`, which compares as 0)
   * picks the single uploader, a larger one the partitioned uploader, and a
   * size that compares with neither (`undefined`, `NaN`) throws. Every given
   * callback is attached to the chosen uploader.
   */
  function GetUploader(fileSize: Number, callbacks: seq<Callback>, limit: int): (r: Result<Uploader, string>)
    ensures LessOrEqual(fileSize, limit) ==> r == Success(Uploader(Single, callbacks))
    ensures Greater(fileSize, limit) ==> r == Success(Uploader(Partitioned, callbacks))
    ensures r.Failure? <==> fileSize.Undefined? || fileSize.NaN?
    ensures r.Failure? ==> r.error == MISSING_FILE_SIZE
  {
    if LessOrEqual(fileSize, limit) then Success(Uploader(Single, callbacks))
    else if Greater(fileSize, limit) then Success(Uploader(Partitioned, callbacks))
    else Failure(MISSING_FILE_SIZE)
  }

  /** `randomstring.generate` output: letters and digits only. */
  predicate IsAlphanumeric(c: char) {
    ('a' <= c <= 'z') || ('A' <= c <= 'Z') || ('0' <= c <= '9')
  }

  /** `path` matches `^[a-zA-Z0-9]{24}\/` followed by exactly `name`. */
  predicate IsGeneratedPath(path: string, name: string) {
    && |path| == HASH_LENGTH + 1 + |name|
    && (forall i :: 0 <= i < HASH_LENGTH ==> IsAlphanumeric(path[i]))
    && path[HASH_LENGTH] == '/'
    && path[HASH_LENGTH + 1..] == name
  }

  /**
   * The `beforeSave` hook. A truthy `filePath` is kept; otherwise it becomes
   * `hash/fileName` (with `fileName` interpolated, so a missing name reads
   * `null`). Then an uploader is chosen by size (which may throw, after the
   * path was assigned), and `numParts` becomes what the upload reports.
   * `hash` is the 24-character output of the random generator; `upload` is
   * what the chosen uploader's `upload` resolved or rejected with.
   */
  function BeforeSave(rec: FileRecord, hash: string, limit: int, upload: Result<Number, string>): (c: Call<bool>)
    requires |hash| == HASH_LENGTH && forall i :: 0 <= i < |hash| ==> IsAlphanumeric(hash[i])
    ensures StringTruthy(rec.filePath) ==> c.record.filePath == rec.filePath
    ensures !StringTruthy(rec.filePath) ==>
      && c.record.filePath.Some?
      && IsGeneratedPath(c.record.filePath.value, Show(FileName(rec).outcome.value))
    ensures StringTruthy(c.record.filePath)
    ensures (rec.fileSize.Undefined? || rec.fileSize.NaN?) ==>
      c.outcome == Failure(MISSING_FILE_SIZE) && c.record.uploader == rec.uploader && c.record.numParts == rec.numParts
    ensures LessOrEqual(rec.fileSize, limit) ==> c.record.uploader == Some(Uploader(Single, rec.uploadCallbacks))
    ensures Greater(rec.fileSize, limit) ==> c.record.uploader == Some(Uploader(Partitioned, rec.uploadCallbacks))
    ensures ToNumeric(rec.fileSize).Some? && upload.Success? ==>
      c.outcome == Success(true) && c.record.numParts == upload.value
    ensures ToNumeric(rec.fileSize).Some? && upload.Failure? ==>
      c.outcome == Failure(upload.error) && c.record.numParts == rec.numParts
    ensures c.record.fileSize == rec.fileSize && c.record.username == rec.username
    ensures c.record.cachedName == rec.cachedName
    ensures c.record.uploadCallbacks == rec.uploadCallbacks && c.record.downloadCallbacks == rec.downloadCallbacks
    ensures c.record.downloader == rec.downloader
    ensures Attached(rec) ==> Attached(c.record)
  {
    var pathed :=
      if StringTruthy(rec.filePath) then rec
      else
        var named := FileName(rec);
        named.record.(filePath := Some(hash + "/" + Show(named.outcome.value)));
    match GetUploader(pathed.fileSize, pathed.uploadCallbacks, limit)
    case Failure(e) => Call(pathed, Failure(e))
    case Success(u) =>
      var withUploader := pathed.(uploader := Some(u));
      match upload
      case Failure(e) => Call(withUploader, Failure(e))
      case Success(n) => Call(withUploader.(numParts := n), Success(true))
  }

  /** A second save keeps the path the first one generated. */
  lemma SecondSaveKeepsPath(rec: FileRecord, hash1: string, hash2: string, limit: int, up1: Result<Number, string>, up2: Result<Number, string>)
    requires |hash1| == HASH_LENGTH && forall i :: 0 <= i < |hash1| ==> IsAlphanumeric(hash1[i])
    requires |hash2| == HASH_LENGTH && forall i :: 0 <= i < |hash2| ==> IsAlphanumeric(hash2[i])
    ensures var first := BeforeSave(rec, hash1, limit, up1).record;
      BeforeSave(first, hash2, limit, up2).record.filePath == first.filePath
  {
  }

  /**
   * A record given a file name (and no path) is saved under
   * `hash/name`, and the name derived back from that path is `name`.
   */
  lemma {:induction false} SavedPathNamesFile(rec: FileRecord, hash: string, limit: int, upload: Result<Number, string>)
    requires |hash| == HASH_LENGTH && forall i :: 0 <= i < |hash| ==> IsAlphanumeric(hash[i])
    requires !StringTruthy(rec.filePath) && StringTruthy(rec.cachedName) && '/' !in rec.cachedName.value
    ensures var saved := BeforeSave(rec, hash, limit, upload).record;
      && saved.filePath == Some(hash + "/" + rec.cachedName.value)
      && FileName(saved.(cachedName := None)).outcome == Success(rec.cachedName)
  {
    var saved := BeforeSave(rec, hash, limit, upload).record;
    FileNameOfPath(saved.(cachedName := None), hash, rec.cachedName.value);
  }

  /** `${filePath}.part${index}`: the remote object holding part `index`. */
  function PartName(filePath: Option<string>, index: nat): (r: string)
    ensures |Show(filePath)| + 5 < |r| && r[..|Show(filePath)| + 5] == Show(filePath) + ".part"
    ensures AllDigits(r[|Show(filePath)| + 5..]) && DecimalValue(r[|Show(filePath)| + 5..]) == index
  {
    var r := Show(filePath) + ".part" + DecimalText(index);
    assert r[..|Show(filePath)| + 5] == Show(filePath) + ".part";
    assert r[|Show(filePath)| + 5..] == DecimalText(index);
    DecimalRoundTrip(index);
    r
  }

  /**
   * Recovers the part index from an object name under `filePath`, if it
   * names a part: the name is the prefix followed by the decimal text of the
   * index, without leading zeros.
   */
  function PartIndex(filePath: Option<string>, name: string): Option<nat> {
    var prefix := Show(filePath) + ".part";
    if |prefix| < |name| && name[..|prefix|] == prefix && AllDigits(name[|prefix|..])
       && DecimalText(DecimalValue(name[|prefix|..])) == name[|prefix|..]
    then Some(DecimalValue(name[|prefix|..]))
    else None
  }

  /** A part name says which part it holds. */
  lemma PartNameRoundTrip(filePath: Option<string>, index: nat)
    ensures PartIndex(filePath, PartName(filePath, index)) == Some(index)
  {
    var prefix := Show(filePath) + ".part";
    var name := PartName(filePath, index);
    assert name[..|prefix|] == prefix;
    assert name[|prefix|..] == DecimalText(index);
    DecimalRoundTrip(index);
  }

  /** The only name that `PartIndex` reads as part `index` is `PartName(filePath, index)`. */
  lemma {:induction false} PartIndexNamesPart(filePath: Option<string>, name: string, index: nat)
    ensures PartIndex(filePath, name) == Some(index) <==> name == PartName(filePath, index)
  {
    if name == PartName(filePath, index) {
      PartNameRoundTrip(filePath, index);
    }
    if PartIndex(filePath, name) == Some(index) {
      var prefix := Show(filePath) + ".part";
      assert name == name[..|prefix|] + name[|prefix|..];
    }
  }

  /**
   * `getPartUrls`: no names when `numParts` is falsy; otherwise exactly
   * `numParts` names, the i-th naming part i. `new Array(n)` throws for a
   * length outside `0..2^32-1`.
   */
  function GetPartUrls(rec: FileRecord): (r: Result<seq<string>, string>)
    ensures !NumberTruthy(rec.numParts) ==> r == Success([])
    ensures NumberTruthy(rec.numParts) && 0 <= rec.numParts.n <= MAX_ARRAY_LENGTH ==>
      && r.Success? && |r.value| == rec.numParts.n
      && (forall i :: 0 <= i < |r.value| ==> PartIndex(rec.filePath, r.value[i]) == Some(i))
      && (forall i :: 0 <= i < |r.value| ==> r.value[i] == PartName(rec.filePath, i))
    ensures NumberTruthy(rec.numParts) && !(0 <= rec.numParts.n <= MAX_ARRAY_LENGTH) ==>
      r == Failure(INVALID_ARRAY_LENGTH)
  {
    if !NumberTruthy(rec.numParts) then Success([])
    else if !(0 <= rec.numParts.n <= MAX_ARRAY_LENGTH) then Failure(INVALID_ARRAY_LENGTH)
    else
      var urls := seq(rec.numParts.n, i requires 0 <= i => PartName(rec.filePath, i));
      assert forall i :: 0 <= i < |urls| ==> PartIndex(rec.filePath, urls[i]) == Some(i) by {
        forall i | 0 <= i < |urls| { PartNameRoundTrip(rec.filePath, i); }
      }
      Success(urls)
  }

  /** The part names of a record are pairwise distinct. */
  lemma PartUrlsDistinct(rec: FileRecord, i: nat, j: nat)
    requires GetPartUrls(rec).Success?
    requires i < j < |GetPartUrls(rec).value|
    ensures GetPartUrls(rec).value[i] != GetPartUrls(rec).value[j]
  {
  }

  /** The file attributes as `serialize` writes them. */
  datatype SerializedFile = SerializedFile(filePath: Option<string>, fileSize: Number, numParts: Number)

  /** `x || null` for a string attribute. */
  function StringOrNull(s: Option<string>): (r: Option<string>)
    ensures r == None || (StringTruthy(r) && r == s)
    ensures StringTruthy(s) ==> r == s
  {
    if StringTruthy(s) then s else None
  }

  /** `x || null` for a numeric attribute. */
  function NumberOrNull(x: Number): (r: Number)
    ensures r == Null || (NumberTruthy(r) && r == x)
    ensures NumberTruthy(x) ==> r == x
  {
    if NumberTruthy(x) then x else Null
  }

  /**
   * `serialize` for the file attributes: each falsy value (including `0` and
   * `""`) becomes `null`, every other value is kept.
   */
  function Serialize(rec: FileRecord): (s: SerializedFile)
    ensures s.filePath == None || (StringTruthy(s.filePath) && s.filePath == rec.filePath)
    ensures s.fileSize == Null || (NumberTruthy(s.fileSize) && s.fileSize == rec.fileSize)
    ensures s.numParts == Null || (NumberTruthy(s.numParts) && s.numParts == rec.numParts)
    ensures StringTruthy(rec.filePath) ==> s.filePath == rec.filePath
    ensures NumberTruthy(rec.fileSize) ==> s.fileSize == rec.fileSize
    ensures NumberTruthy(rec.numParts) ==> s.numParts == rec.numParts
  {
    SerializedFile(StringOrNull(rec.filePath), NumberOrNull(rec.fileSize), NumberOrNull(rec.numParts))
  }

  /** Serializing a record rebuilt from serialized attributes gives the same attributes. */
  lemma SerializeStable(rec: FileRecord)
    ensures var s := Serialize(rec);
      Serialize(rec.(filePath := s.filePath, fileSize := s.fileSize, numParts := s.numParts)) == s
  {
  }

  /** Serialization does not depend on the cached name, the callbacks or the transfer objects. */
  lemma SerializeIgnoresCaches(rec: FileRecord, other: FileRecord)
    requires rec.filePath == other.filePath && rec.fileSize == other.fileSize && rec.numParts == other.numParts
    ensures Serialize(rec) == Serialize(other)
  {
  }

  /**
   * `onUploadProgress`: a function is appended to the upload callbacks and
   * attached to the current uploader if there is one; anything else throws
   * and changes nothing.
   */
  function OnUploadProgress(rec: FileRecord, arg: Argument): (c: Call<()>)
    ensures arg.NotFunction? ==> c == Call(rec, Failure(NOT_A_FUNCTION))
    ensures arg.Function? ==>
      && c.outcome.Success?
      && c.record.uploadCallbacks == rec.uploadCallbacks + [arg.callback]
      && (rec.uploader.None? ==> c.record.uploader == None)
      && (rec.uploader.Some? ==> c.record.uploader == Some(rec.uploader.value.(observers := rec.uploader.value.observers + [arg.callback])))
      && c.record.(uploadCallbacks := rec.uploadCallbacks, uploader := rec.uploader) == rec
    ensures Attached(rec) ==> Attached(c.record)
  {
    match arg
    case NotFunction => Call(rec, Failure(NOT_A_FUNCTION))
    case Function(f) =>
      var uploader :=
        match rec.uploader
        case None => None
        case Some(u) => Some(u.(observers := u.observers + [f]));
      Call(rec.(uploadCallbacks := rec.uploadCallbacks + [f], uploader := uploader), Success(()))
  }

  /**
   * `onDownloadProgress`: a function is appended to the download callbacks
   * and attached to the current downloader if there is one; anything else
   * throws and changes nothing.
   */
  function OnDownloadProgress(rec: FileRecord, arg: Argument): (c: Call<()>)
    ensures arg.NotFunction? ==> c == Call(rec, Failure(NOT_A_FUNCTION))
    ensures arg.Function? ==>
      && c.outcome.Success?
      && c.record.downloadCallbacks == rec.downloadCallbacks + [arg.callback]
      && (rec.downloader.None? ==> c.record.downloader == None)
      && (rec.downloader.Some? ==> c.record.downloader == Some(Downloader(rec.downloader.value.observers + [arg.callback])))
      && c.record.(downloadCallbacks := rec.downloadCallbacks, downloader := rec.downloader) == rec
    ensures Attached(rec) ==> Attached(c.record)
  {
    match arg
    case NotFunction => Call(rec, Failure(NOT_A_FUNCTION))
    case Function(f) =>
      var downloader :=
        match rec.downloader
        case None => None
        case Some(d) => Some(Downloader(d.observers + [f]));
      Call(rec.(downloadCallbacks := rec.downloadCallbacks + [f], downloader := downloader), Success(()))
  }

  /** The request `download` makes for a single object: decryption and verification are off. */
  datatype UrlRequest = UrlRequest(path: Option<string>, username: Option<string>, decrypt: bool, verify: bool)

  /** One invocation of a progress callback. */
  datatype Notification = Notification(callback: Callback, progress: int)

  /** What `download` resolves with: reassembled bytes, or the URL of the single object. */
  datatype Fetched = Reassembled(bytes: seq<bv8>) | FileUrl(url: string)

  /** The effect of `download`. */
  datatype DownloadCall = DownloadCall(
    record: FileRecord,
    request: Option<UrlRequest>,
    notified: seq<Notification>,
    outcome: Result<Fetched, string>)

  /**
   * `download`: with more than one part, a partitioned downloader carrying
   * every download callback fetches the parts (its result is `reassembled`);
   * otherwise (`numParts` null, 0 or 1) the single object's URL is requested
   * (its result is `fileUrl`) and, once it resolves, every download callback
   * is invoked once with 1.
   */
  function Download(rec: FileRecord, fileUrl: Result<string, string>, reassembled: Result<seq<bv8>, string>): (d: DownloadCall)
    ensures d.request.None? <==> rec.numParts.Num? && rec.numParts.n > 1
    ensures d.request.None? ==>
      && d.record == rec.(downloader := Some(Downloader(rec.downloadCallbacks)))
      && d.notified == []
      && (reassembled.Success? ==> d.outcome == Success(Reassembled(reassembled.value)))
      && (reassembled.Failure? ==> d.outcome == Failure(reassembled.error))
    ensures d.request.Some? ==>
      && d.record == rec
      && d.request.value == UrlRequest(rec.filePath, rec.username, false, false)
      && (fileUrl.Failure? ==> d.outcome == Failure(fileUrl.error) && d.notified == [])
      && (fileUrl.Success? ==>
            && d.outcome == Success(FileUrl(fileUrl.value))
            && |d.notified| == |rec.downloadCallbacks|
            && forall i :: 0 <= i < |d.notified| ==> d.notified[i] == Notification(rec.downloadCallbacks[i], 1))
    ensures Attached(rec) ==> Attached(d.record)
  {
    if NumberTruthy(rec.numParts) && Greater(rec.numParts, 1) then
      var withDownloader := rec.(downloader := Some(Downloader(rec.downloadCallbacks)));
      var outcome :=
        match reassembled
        case Success(bytes) => Success(Reassembled(bytes))
        case Failure(e) => Failure(e);
      DownloadCall(withDownloader, None, [], outcome)
    else
      var request := UrlRequest(rec.filePath, rec.username, false, false);
      match fileUrl
      case Failure(e) => DownloadCall(rec, Some(request), [], Failure(e))
      case Success(url) =>
        var cbs := rec.downloadCallbacks;
        DownloadCall(rec, Some(request), seq(|cbs|, i requires 0 <= i < |cbs| => Notification(cbs[i], 1)), Success(FileUrl(url)))
  }
}

=== FILE: wrappers.dfy ===
/** Failure-compatible result types shared by every module of the model. */
module Wrappers {

  /** A value that may be absent; as an attribute, `None` stands for its default `null` (see `Js.Show`). */
  datatype Option<+T> = None | Some(value: T) {

    /** The value held, or `default` when there is none. */
    function GetOr(default: T): T {
      match this
      case Some(v) => v
      case None => default
    }
  }

  /** The outcome of a call that either returns a value or throws an error. */
  datatype Result<+R, +E> = Success(value: R) | Failure(error: E)
}
